=== FILE: README.md ===
# Session and ownership core of a NestJS music-catalogue API

This project models, in Dafny, the account and session logic of a NestJS/Prisma
back end for a Spotify-like catalogue (users, singers, singer albums, songs,
playlists). It covers:

- sign-up with an optional administrator product key;
- login, refresh-token rotation and logout;
- e-mail confirmation and password reset through short-lived access tokens;
- the shared helpers that sign tokens, store the refresh-token digest, verify the product key and look users up;
- the guards on the authentication routes;
- the owner/administrator checks in front of the update and delete operations of the other services.

The model is purely functional:

- **Tables.** Every Prisma table is a `seq` of rows in listing order. A unique lookup returns the first row with the key (`Tables.IndexOf`). Paging is a window of that sequence; the catalogue services' `getAll` is that window itself.
- **Hashing.** An argon2 digest is a symbolic `Digest` that records its preimage. Verification holds exactly when the digest is the hash of the candidate. A digest string sent by a client is either the encoding of such a digest or text the library cannot parse; salt and timing are not represented.
- **Tokens.** A signed JWT is a `Token` value. It holds its class (access or refresh), the user's id and role, and the issue and expiry times in whole seconds. The issue time is the caller-supplied millisecond clock divided by 1000, as the JWT library does. Access tokens live 900 s and refresh tokens 604800 s.
- **Results.** Each operation returns a `Result`. Operations that start an upload or send a mail return a `Reply`, which pairs the list of those side effects with the result. An upload made before a failure therefore stays visible.
- **Errors.** The HTTP exceptions are the `Error` constructors, with the source's messages. A throw from a library or the store is `InternalError`:
  - `argon2.verify` on a missing digest or on a product key it cannot parse;
  - a property read on a failed `jwt.decode`;
  - a unique-constraint violation on create or update;
  - a body value of the wrong type for its column on sign-up or update;
  - a body key that names no column of the table ("Unknown argument");
  - `hash` of a password value that is not text.

Modules follow the source's files:

| module | file |
|---|---|
| `Results` | shared result types |
| `Crypto` | argon2 hash and verify |
| `Text` | ASCII lower-casing |
| `Tables` | store lookups and paging |
| `Tokens` | roles and JWTs |
| `Effects` | uploads and mails |
| `Common` | `common/common.service.ts` |
| `Auth` | `auth/auth.service.ts` |
| `AuthRoutes` | `auth/auth.controller.ts` |
| `AuthProperties` | lemmas relating several auth operations |
| `UserService` | `user/user.service.ts` |
| `Catalog` | the shared ownership pattern |
| `SingerService` | `singer/singer.service.ts` |
| `SingerAlbumService` | `singer-album/singer-album.service.ts` |
| `SongService` | `song/song.service.ts` |
| `PlaylistService` | `playlist/playlist.service.ts` |

Behaviour of the code worth noting:

- A refresh after logout fails with an internal error, not 403. `argon2.verify` throws on the cleared digest.
- The shared user lookups answer 403 "User not found!", not 404.
- The user and singer services check authorization before they check that the target exists. The album, song and playlist services check existence first.
- Signing up with a mixed-case e-mail stores it lower-cased. Login does not lower-case it (see Findings).
- Sign-up, playlist creation and the update handlers spread the whole request body into the row; only the fields the code sets afterwards (photo name, owner on creation, and for users the password, e-mail and role) override it. A body key `id` picks or renames the row's id, and the store refuses an id that is taken. A key that names no column is refused by the store, after the upload. A key `userId` hands an album, song or playlist to another owner. On sign-up, `confirmed: true` creates an account that is already confirmed (see Findings). On a user update, `role`, `email` and `confirmed` are written as sent, so a USER can make their own account ADMIN (see Findings). An e-mail set this way is not lower-cased.
- The confirm and reset routes decode the path token without checking its signature. Any valid access cookie lets a request reset the password of the account the token's claims name (`AuthRoutes.ResetActsOnPathTokenAccount`).

## Model

| member | source | states |
|---|---|---|
| Crypto.HashInjective | src/common/common.service.ts:55-63 | two digests are equal exactly when their preimages are, so a stored digest identifies one token or password |
| Crypto.VerifyUnique | src/auth/auth.service.ts:155-158 | a digest verifies against exactly one candidate |
| Crypto.VerifyEncoded | src/common/common.service.ts:75-78 | verifying a client-supplied digest string throws exactly when the string does not parse; otherwise it succeeds exactly when the string is the encoding of the candidate's hash |
| Text.LowerChar | src/auth/auth.service.ts:75 | ASCII capitals map to lower case; the model leaves every other character unchanged |
| Text.ToLowerCase | src/auth/auth.service.ts:75 | lower-casing keeps the length, maps each character, and yields a lower-case string |
| Text.ToLowerCaseFixesLowerCase | src/auth/auth.service.ts:75 | an already lower-case e-mail is stored exactly as typed |
| Text.ToLowerCaseIdempotent | src/auth/auth.service.ts:75 | lower-casing twice is lower-casing once |
| Tables.IndexOf | src/common/common.service.ts:88-106 | the lookup finds the first row with the key, and finds none only when no row has it |
| Tables.IndexOfUnique | src/common/common.service.ts:88-106 | on a unique column the lookup finds the one row carrying the key |
| Tables.RemoveAt | src/user/user.service.ts:96-98 | deleting a row shortens the table by one and keeps the other rows in order |
| Tables.RemoveAtKeepsUnique | src/user/user.service.ts:96-98 | deleting a row keeps a unique column unique |
| Tables.RemoveAtDropsOnlyThatRow | src/user/user.service.ts:96-98 | deletion adds no row, keeps every row with a different key, and on a unique column removes the key entirely |
| Tables.Window | src/user/user.service.ts:41-47 | page `page` of size `size` holds the rows from `page*size` on, at most `size` of them, and is empty past the end; the singer, album, song and playlist `getAll` page their tables the same way |
| Tables.WindowCovers | src/user/user.service.ts:41-47 | every row appears on page `k/size` at position `k%size` |
| Tables.PagesTile | src/user/user.service.ts:41-47 | the first `n` pages, concatenated, are exactly the first `n*size` rows |
| Tokens.ParseRole | src/auth/auth.controller.ts:43 | a role segment parses only when it is one of the enum names, otherwise 400 |
| Tokens.ParseRoleRoundTrip | src/auth/auth.controller.ts:43 | every role's name parses back to that role |
| Tokens.SignAccessToken | src/common/common.service.ts:18-26 | an access token carries the user's id and role and expires 900 s after its issue second |
| Tokens.SignRefreshToken | src/common/common.service.ts:28-36 | a refresh token carries the user's id and role and expires 604800 s after its issue second |
| Tokens.RefreshTokensDifferAcrossSeconds | src/common/common.service.ts:28-36 | two refresh tokens for one user are equal exactly when signed within the same second |
| Tokens.AccessTokenLifetime | src/auth/auth.service.ts:114-116 | an access token is expired from 900 s after issue and not before the last second of that window |
| Common.FindUserById | src/common/common.service.ts:88-96 | returns the stored user with that id, or 403 "User not found!" exactly when there is none |
| Common.FindUserByEmail | src/common/common.service.ts:98-106 | returns the stored user with that e-mail, or 403 "User not found!" exactly when there is none |
| Common.UpdateById | src/common/common.service.ts:55-63 | rewriting one user changes only the row with that id and keeps the table's length |
| Common.UpdateRefreshToken | src/common/common.service.ts:55-63 | afterwards the user's stored refresh digest is the hash of the new token, and nothing else changes |
| Common.UpdateKeepsValid | src/common/common.service.ts:55-63 | a rewrite that keeps ids and e-mails keeps the user table well formed |
| Common.VerifyAdmin | src/common/common.service.ts:65-86 | non-admins always pass; an admin passes exactly when the key is the encoded hash of the e-mail, role and secret text; an absent or empty key is 403 "Product key not found!", a key argon2 cannot parse is an internal error, a parsable wrong key is 403 "Product key is not valid!"; the key is stripped |
| Auth.IssueCookies | src/common/common.service.ts:38-53 | the cookie pair is an access and a refresh token for the same user issued at the same time |
| Auth.Signup | src/auth/auth.service.ts:47-109 | 403 when the typed e-mail is taken; otherwise a failing admin gate answers the gate's error with no upload; otherwise, after the upload, a body key that names no user column or has the wrong type is refused, and a taken id or lower-cased e-mail is the unique-constraint error; otherwise appends a user with the body's `id` when given, the lower-cased e-mail, the hashed password, the route's role, `confirmed` as the body sends it, the upload's photo name, issues cookies, stores the refresh digest and mails a confirmation token; the table stays well formed |
| Auth.SignupWhitelisted | src/auth/auth.service.ts:47-109 | with the body reduced to the declared fields, sign-up succeeds exactly when the e-mail and the generated id are free and the admin gate passes, and the new account has the generated id and is not confirmed |
| Auth.Login | src/auth/auth.service.ts:148-180 | 403 for an unknown e-mail or wrong password; otherwise issues cookies for that user, stores the new refresh digest, returns the public view |
| Auth.LoginNormalized | src/auth/auth.service.ts:148-180 | login with the e-mail lower-cased as at sign-up |
| Auth.HandleRefreshToken | src/auth/auth.service.ts:190-222 | succeeds exactly when the presented refresh token is the one whose digest is stored; then rotates both tokens; 403 otherwise, internal error after logout |
| Auth.ConfirmEmail | src/auth/auth.service.ts:111-126 | a decodable, unexpired token of an existing user marks that user confirmed and nothing else; 403 when unknown or expired |
| Auth.ResendConfirmationEmail | src/auth/auth.service.ts:128-146 | for an existing caller, mails a fresh access token of that caller and changes nothing |
| Auth.ForgotPassword | src/auth/auth.service.ts:224-242 | for an existing caller, mails a reset token of that caller and changes nothing |
| Auth.ResetPassword | src/auth/auth.service.ts:244-261 | an unexpired token of an existing user replaces that user's password digest and nothing else |
| Auth.Logout | src/auth/auth.service.ts:263-272 | clears the caller's refresh digest and changes nothing else; 403 for an unknown caller |
| Auth.SignProductKey | src/auth/auth.service.ts:274-281 | the minted key string verifies, without throwing, against the e-mail, role and secret text |
| AuthProperties.RewriteKeepsSound | src/common/common.service.ts:55-63 | a rewrite that keeps ids, e-mails and roles and stores only own refresh tokens keeps every stored digest bound to its owner |
| AuthProperties.SignupKeepsSound | src/auth/auth.service.ts:82-93 | after sign-up every stored refresh digest is of a refresh token of its own user |
| AuthProperties.LoginKeepsSound | src/auth/auth.service.ts:160-170 | login keeps every stored refresh digest bound to its owner |
| AuthProperties.RefreshKeepsSound | src/auth/auth.service.ts:205-220 | rotation keeps every stored refresh digest bound to its owner |
| AuthProperties.ConfirmEmailKeepsSound | src/auth/auth.service.ts:120-125 | confirmation keeps the table well formed and bound |
| AuthProperties.ResetPasswordKeepsSound | src/auth/auth.service.ts:256-260 | password reset keeps the table well formed and bound |
| AuthProperties.LogoutKeepsSound | src/auth/auth.service.ts:263-272 | logout keeps the table well formed and bound |
| AuthProperties.RefreshOnlyWithOwnToken | src/auth/auth.service.ts:190-204 | a refresh succeeds only with a refresh-class token of the caller |
| AuthProperties.RotationRevokesConsumedToken | src/auth/auth.service.ts:190-222 | a refresh token works exactly when it is the user's latest; after rotation a later second's refresh rejects the consumed token |
| AuthProperties.LogoutIdempotent | src/auth/auth.service.ts:263-272 | logging out twice leaves the table as logging out once |
| AuthProperties.RefreshAfterLogoutFails | src/auth/auth.service.ts:195-205 | after logout every refresh fails, with an internal error from verifying a missing digest |
| AuthProperties.ConfirmEmailIdempotent | src/auth/auth.service.ts:111-126 | confirming again leaves the table unchanged |
| AuthProperties.ConfirmAfterWindowFails | src/auth/auth.service.ts:114-116 | a confirmation token presented 900 s or more after issue is refused as expired |
| AuthProperties.CapabilityTokensInterchangeable | src/auth/auth.service.ts:244-253 | confirmation and reset accept exactly the same tokens and fail the same way |
| AuthProperties.ResetSetsPassword | src/auth/auth.service.ts:244-261 | an unexpired token naming a stored user resets that user's password, and the stored digest then verifies the new password |
| AuthProperties.ConfirmSetsConfirmed | src/auth/auth.service.ts:111-126 | an unexpired token naming a stored user confirms that user |
| AuthProperties.ForgotThenReset | src/auth/auth.service.ts:224-242 | the token mailed by forgot-password, presented within its 900 s, resets the caller's password |
| AuthProperties.ResendThenConfirm | src/auth/auth.service.ts:128-146 | the token mailed by resend-confirmation, presented within its 900 s, confirms the caller |
| AuthProperties.ResetKeepsRefreshToken | src/auth/auth.service.ts:256-260 | a password reset does not revoke the session: refresh outcomes are the same before and after |
| AuthProperties.ProductKeyRoundTrip | src/auth/auth.service.ts:274-281 | an admin sign-up passes the key check exactly when its key is the minted key for its e-mail |
| AuthProperties.UnparsableProductKeyIsInternalError | src/common/common.service.ts:75-78 | an admin sign-up whose key is non-empty text argon2 cannot parse fails with an internal error before any upload |
| AuthProperties.SignedUpUserIsFound | src/common/common.service.ts:88-106 | a newly appended user is found by its id and by its e-mail |
| AuthProperties.AdminSignupLoginRevokesSignupToken | src/auth/auth.service.ts:190-222 | after admin sign-up then login, the sign-up refresh token still works only if both happened in the same second |
| AuthProperties.CaseVariantSignupReachesStore | src/auth/auth.service.ts:55-80 | an e-mail differing only in case from a stored one passes the duplicate check and fails in the store after the upload; with a body that fits the columns, the failure is the unique-constraint error |
| AuthProperties.SignupPreConfirmedAsWritten | src/auth/auth.service.ts:71-78 | a sign-up whose body carries `confirmed: true` succeeds and stores an account that is already confirmed |
| AuthProperties.MixedCaseLoginFails | src/auth/auth.service.ts:152-153 | login with an e-mail that is not lower case never finds a user |
| AuthProperties.SignupThenLoginAsTypedFails | src/auth/auth.service.ts:152-153 | signing up as "A@x.io" then logging in as typed answers 403 "User not found!" |
| AuthProperties.SignupThenLoginNormalized | src/auth/auth.service.ts:148-180 | with the e-mail lower-cased, login after sign-up with the same password succeeds |
| AuthRoutes.Policy | src/auth/auth.controller.ts:37-126 | every route except logout answers the framework's default status; logout is DELETE and answers 204, not the default |
| AuthRoutes.OpenRoutesAreSignupAndLogin | src/auth/auth.controller.ts:37-126 | exactly sign-up and login admit every request |
| AuthRoutes.AccessTokenRoutes | src/auth/auth.controller.ts:48-117 | the confirm, resend, forgot, reset and logout routes admit exactly requests with a valid access token |
| AuthRoutes.RefreshRouteNeedsRefreshToken | src/auth/auth.controller.ts:82-90 | the refresh route admits exactly requests with a valid refresh token |
| AuthRoutes.ProductKeyAdminOnly | src/auth/auth.controller.ts:119-126 | the product-key route admits exactly requests whose access token has role ADMIN |
| AuthRoutes.HandleSignup | src/auth/auth.controller.ts:37-46 | a role segment outside the enum fails with 400 before anything happens; a success has the parsed role |
| AuthRoutes.HandleResetPassword | src/auth/auth.controller.ts:100-107 | a request without a valid access cookie answers 401; any admitted request gets the service's reset of the path token, whatever the cookie's claims |
| AuthRoutes.ResetActsOnPathTokenAccount | src/auth/auth.controller.ts:100-107 | a request admitted with the access cookie of one account and a path token naming another stored account answers exactly as that other account's own cookie would: it succeeds and the other account's digest then verifies the new password |
| UserService.GetAll | src/user/user.service.ts:41-47 | returns the public view of the requested page of users |
| UserService.GetOne | src/user/user.service.ts:49-58 | returns the public view of the user, or 404 "User not found!" exactly when absent |
| UserService.NewPassword | src/user/user.service.ts:76-78 | a truthy text password replaces the digest with one that verifies it; an absent or falsy one keeps the old digest; `true` makes `hash` throw |
| UserService.Revise | src/user/user.service.ts:76-86 | the spread succeeds exactly when the password hashes and every key names a user column with a value of its type; then each column the body names takes the body's value, the role its parsed name, the password as hashed, the photo the upload's name, and the refresh digest is kept |
| UserService.Update | src/user/user.service.ts:60-89 | 401 for a caller who is neither the user nor an admin, then 403 for a missing user; then, after the upload, the spread's error (an unknown key or a value of the wrong type), or the unique-constraint error when the new id or e-mail belongs to another user; otherwise only that row changes, as the spread says, and the table stays well formed when any e-mail sent is lower case |
| UserService.SelfPromotionAsWritten | src/user/user.service.ts:80-86 | a USER who updates their own account with body `role` = `ADMIN` succeeds, and the stored account is then an ADMIN |
| UserService.UpdateWhitelisted | src/user/user.service.ts:60-89 | with the body reduced to the declared `username` and `password`, an update never changes any account's id, e-mail, role, confirmation or refresh digest, and keeps the table well formed |
| UserService.Delete | src/user/user.service.ts:91-99 | 401 then 403 as for update; otherwise exactly that user is removed and the table stays well formed |
| Catalog.Patch | src/singer/singer.service.ts:72-75 | patched fields are the body's where given and the old ones elsewhere |
| Catalog.ReplaceKeepsUnique | src/singer-album/singer-album.service.ts:71-75 | writing a row whose id is its own or is in no other row keeps the ids unique |
| Catalog.RuleMeaning | src/song/song.service.ts:63-65 | the owner-or-admin rule used by users, singers and albums admits exactly the owner or an admin; the rule as written in songs and playlists admits only an owner who is an admin |
| Catalog.GetOne | src/singer-album/singer-album.service.ts:42-52 | returns the item with that id, or 404 exactly when absent |
| Catalog.UpdateItem | src/singer-album/singer-album.service.ts:54-76 | 404 when absent, then 401 when the rule rejects, then, after the upload, "Unknown argument" when a body key names no column of the table, and the unique-constraint error when the body renames the item to a taken id; otherwise only that item changes: its id and owner are the body's `id` and `userId` when given, the other body keys patch its fields, its photo is the upload's; ids stay unique |
| Catalog.DeleteItem | src/singer-album/singer-album.service.ts:78-89 | 404 when absent, then 401 when the rule rejects; otherwise exactly that item is removed |
| SingerService.GetOne | src/singer/singer.service.ts:48-57 | returns the singer, or 404 "Singer not found!" exactly when absent |
| SingerService.Update | src/singer/singer.service.ts:59-77 | 401 first; the upload happens before the 404 for a missing singer, before "Unknown argument" for a body key that names no column, and before the unique-constraint error for a body `id` that is taken; otherwise only that singer changes, renamed by a body `id` and patched by the other keys, and ids stay unique |
| SingerService.Delete | src/singer/singer.service.ts:79-85 | 401 first, then 404; otherwise exactly that singer is removed |
| SingerAlbumService.GetOne | src/singer-album/singer-album.service.ts:42-52 | returns the album, or 404 "Singer Album not found!" exactly when absent |
| SingerAlbumService.Update | src/singer-album/singer-album.service.ts:54-76 | 404 when absent; 401 unless the caller is the owner or an admin; otherwise succeeds exactly when every body key names a column and a body `id` is not taken, and the album takes the body's `id` and `userId` when given |
| SingerAlbumService.Delete | src/singer-album/singer-album.service.ts:78-89 | 404 when absent; then succeeds exactly for the owner or an admin, removing only that album |
| SongService.GetOne | src/song/song.service.ts:43-54 | returns the song, or 404 "Song not found!" exactly when absent |
| SongService.Update | src/song/song.service.ts:56-74 | as written: 404 when absent; 401 unless the caller owns the song and is an admin; otherwise succeeds exactly when every body key names a column and a body `id` is not taken, revised as the body says |
| SongService.Delete | src/song/song.service.ts:76-84 | as written: 404 when absent; then succeeds exactly for an owner who is an admin |
| SongService.OwnerDeniedAsWritten | src/song/song.service.ts:63-65 | the owner of a song whose role is USER gets 401 on update and delete |
| SongService.UpdateIntended | src/song/song.service.ts:56-74 | with the intended rule, update succeeds exactly for the owner or an admin, unless a body key names no column or a body `id` is taken |
| SongService.DeleteIntended | src/song/song.service.ts:76-84 | with the intended rule, delete succeeds exactly for the owner or an admin |
| SongService.PushSongToPlaylist | src/song/song.service.ts:86-96 | appends exactly one link for the given song and playlist and keeps the existing links |
| SongService.PushAddsToThatPlaylistOnly | src/song/song.service.ts:86-96 | after a push the playlist's songs are the old ones plus the pushed song, and every other playlist's songs are unchanged |
| PlaylistService.GetOne | src/playlist/playlist.service.ts:39-50 | returns the playlist, or 404 "Playlist not found!" exactly when absent |
| PlaylistService.Create | src/playlist/playlist.service.ts:52-68 | uploads first; "Unknown argument" when a body key names no column; the unique-constraint error for a taken id; otherwise appends a playlist owned by the caller whatever `userId` the body names, with the body's `id` when given, the other body keys as fields and the photo name; ids stay unique |
| PlaylistService.Update | src/playlist/playlist.service.ts:70-88 | as written: 404 when absent; 401 unless the caller owns the playlist and is an admin; otherwise succeeds exactly when every body key names a column and a body `id` is not taken; the owner is kept unless the body names a `userId` |
| PlaylistService.Delete | src/playlist/playlist.service.ts:90-98 | as written: 404 when absent; then succeeds exactly for an owner who is an admin |
| PlaylistService.CreatorDeniedAsWritten | src/playlist/playlist.service.ts:77-79 | a USER who creates a playlist then gets 401 updating or deleting it |
| PlaylistService.UpdateIntended | src/playlist/playlist.service.ts:70-88 | with the intended rule, update succeeds exactly for the owner or an admin, unless a body key names no column or a body `id` is taken |
| PlaylistService.DeleteIntended | src/playlist/playlist.service.ts:90-98 | with the intended rule, delete succeeds exactly for the owner or an admin |
| PlaylistService.CreatorMayMutate | src/playlist/playlist.service.ts:52-98 | with the intended rule, whoever creates a playlist may then delete it, and update it exactly when every body key names a column and the update does not rename it to a taken id |

## Left out

- Argon2 and JWT cryptography: salts, cost parameters, signatures, secrets and the base64 encoding are not modelled. A digest is its preimage under a symbolic constructor. A token is its claims.
- Passport strategies: cookie extraction, signature checking and expiry checking by the guards are abstracted into the presence of decoded claims.
- The Google login and redirect handlers: they are stubs that return a fixed string.
- Cookie attributes, response objects and HTTP transport: these are out of scope.
- Mail delivery: a mail is an effect carrying its kind and token. The recipient, template and a failure to send are not modelled.
- Upload contents: the file's bytes and an upload failure are not modelled. Only the original name is.
- Prisma: transactions, concurrency and the generated ids are left out. A new id is a parameter; a taken id or e-mail is the store's unique-constraint error.
- Timestamps: `createdAt`/`updatedAt` are left out. The clock is a parameter in milliseconds.
- DTO validation: password strength, e-mail format and page/size query parsing are not modelled. Page and size are natural numbers, so negative values are not modelled.
- Text.ToLowerCase: lower-cases ASCII letters only, because the JavaScript case mapping of other characters is not modelled.
- Text.LowerChar: leaves non-ASCII capitals such as 'Ä' unchanged, which JavaScript's `toLowerCase` would lower, for the same reason.
- Tables.Window: assumes the table is listed in one fixed order. The source's `findMany` queries set no `orderBy`, so the store's order may differ from one request to the next; Tables.WindowCovers and Tables.PagesTile rest on the same assumption.
- Common.FindUserByEmail: assumes the store compares e-mails case-sensitively, since the source does not fix the column's collation. AuthProperties.CaseVariantSignupReachesStore, AuthProperties.MixedCaseLoginFails, AuthProperties.SignupThenLoginAsTypedFails and the third Findings row rest on this.
- Database referential constraints: the foreign keys of the join table and the cascading deletes are not modelled.
- SongService.PushSongToPlaylist: does not model the store refusing a duplicate or dangling link.
- Unmodelled reads: the second lookup in the auth operations cannot fail and is folded into the first. So are the re-read after login and the `!user` check that follows a lookup that already threw.
- Store fields: the descriptive columns of singers, albums, songs and playlists are an opaque map from column name to string; their types (number, enum) are not modelled.
- Common.UpdateById: a missing id leaves the table unchanged, whereas the store's `update` throws. Every caller looks the user up first, so the source never reaches that case.
- UserService.Update: body values are text fields or JSON booleans; JSON `null`, numbers and objects are not modelled. The user table's columns are taken to be exactly `Common.UserColumns`, because the schema is not part of this model, so `createdAt`/`updatedAt` keys are refused rather than written. A text `refreshToken` is accepted but its raw value is not stored; the model keeps the old digest.
- Auth.Signup: body values are text fields or JSON booleans, as for UserService.Update, and the user columns are taken to be `Common.UserColumns`. A body `refreshToken` is accepted and then overwritten by the refresh digest stored right after creation, as in the source.
- Catalog.UpdateItem: the set of descriptive column names is a parameter, because the schema is not part of this model; a key outside it and the id, owner and photo columns is refused. A body `userId` that names no user is accepted, because the foreign key to the user table is not modelled, and a descriptive value of the wrong type is not refused. The same holds for SingerAlbumService.Update, SongService.Update, SongService.UpdateIntended, PlaylistService.UpdateIntended and PlaylistService.CreatorMayMutate.
- SingerService.Update: the descriptive column names are a parameter, as for Catalog.UpdateItem; a descriptive value of the wrong type for its column is not refused, because the column types are not modelled.
- PlaylistService.Update: as for Catalog.UpdateItem, the descriptive column names are a parameter and a body `userId` naming no user is accepted.
- PlaylistService.Create: the descriptive column names are a parameter and a descriptive value of the wrong type is not refused, as for Catalog.UpdateItem.
- Tokens.ParseRole: assumes the Prisma `Role` enum has exactly the members USER and ADMIN. The schema is not part of this model and the code names only `Role.ADMIN`; the parse's if-and-only-if depends on this assumption.

## Findings

| source | as written | input that shows it | evidently intended | confidence | as-written member | corrected member |
|---|---|---|---|---|---|---|
| src/song/song.service.ts:63-65 | update and delete reject unless the caller owns the song AND is an ADMIN | a USER-role caller who owns the song gets 401 | owner OR admin, as in the user, singer and album services | high; not executed | SongService.OwnerDeniedAsWritten | SongService.UpdateIntended |
| src/playlist/playlist.service.ts:77-79 | update and delete reject unless the caller owns the playlist AND is an ADMIN | a USER creates a playlist, then updating it answers 401 | owner OR admin | high; not executed | PlaylistService.CreatorDeniedAsWritten | PlaylistService.CreatorMayMutate |
| src/user/user.service.ts:80-86 | the whole body is spread into the row, so a `role` key sets the account's role | a USER sends `PUT /users/<own id>` with the form field `role=ADMIN`; the stored role becomes ADMIN | only the declared `username` and `password` reach the row, as a whitelisting validation pipe would ensure | medium (assumes no whitelisting validation pipe is installed at bootstrap; the bootstrap file is not part of this model); not executed | UserService.SelfPromotionAsWritten | UserService.UpdateWhitelisted |
| src/auth/auth.service.ts:71-78 | the whole sign-up body is spread into the new row, so a `confirmed` key is stored as sent | sign up with the JSON body field `confirmed: true`; the account is confirmed without the mailed token ever being used | only the declared fields reach the row, so every new account starts unconfirmed with a generated id | medium (assumes no whitelisting validation pipe is installed at bootstrap; the bootstrap file is not part of this model); not executed | AuthProperties.SignupPreConfirmedAsWritten | Auth.SignupWhitelisted |
| src/auth/auth.service.ts:152-153 | sign-up stores the e-mail lower-cased, but login looks it up as typed | sign up as "A@x.io", log in as "A@x.io": 403 "User not found!" | login lower-cases the e-mail as sign-up does | medium (assumes case-sensitive e-mail comparison in the store); not executed | AuthProperties.SignupThenLoginAsTypedFails | AuthProperties.SignupThenLoginNormalized |

=== FILE: albums.dfy ===
/** `SingerAlbumService`: update and delete look the album up first, then
    let through its owner or an ADMIN. The update body is spread into the
    row, so it may rename the album or hand it to another owner. */
module SingerAlbumService {
  import opened Results
  import opened Tables
  import opened Tokens
  import opened Effects
  import opened Catalog

  const AlbumNotFound: string := "Singer Album not found!"

  /** `getOne(singerAlbumId)`. */
  function GetOne(albums: seq<Item>, id: string): (r: Result<Item>)
    ensures r.Ok? <==> Has(albums, ItemId, id)
    ensures r.Err? ==> r.error == NotFound(AlbumNotFound)
    ensures r.Ok? ==> r.value in albums && r.value.id == id
  {
    Catalog.GetOne(albums, id, AlbumNotFound)
  }

  /** `update(singerAlbumData, singerAlbumId, decodedUser, file)`. */
  function Update(albums: seq<Item>, id: string, body: Fields, columns: set<string>, file: Option<Upload>,
                  caller: JwtPayload): (r: Reply<(seq<Item>, Item)>)
    ensures !Has(albums, ItemId, id) ==> r == Reply([], Err(NotFound(AlbumNotFound)))
    ensures Has(albums, ItemId, id) ==>
              var owner := GetOne(albums, id).value.userId;
              (r.result.Ok? <==> (caller.id == owner || caller.role == ADMIN)
                                  && Known(body, columns + ItemColumns) && !IdTaken(albums, ItemId, id, body))
    ensures Has(albums, ItemId, id) ==>
              var owner := GetOne(albums, id).value.userId;
              !(caller.id == owner || caller.role == ADMIN) ==> r == Reply([], Err(Unauthorized("Unauthorized user!")))
    ensures r.result.Ok? ==>
              var (before, after) := (GetOne(albums, id).value, r.result.value.1);
              && r.effects == UploadEffects(file)
              && after.id == Override(body, "id", id)
              && after.userId == Override(body, "userId", before.userId)
              && after.photoName == PhotoName(file)
              && after.fields == Patch(before.fields, body - ItemColumns)
  {
    UpdateItem(albums, id, body, columns, file, caller, OwnerOrAdmin, AlbumNotFound)
  }

  /** `delete(singerAlbumId, decodedUser)`. */
  function Delete(albums: seq<Item>, id: string, caller: JwtPayload): (r: Result<seq<Item>>)
    ensures !Has(albums, ItemId, id) ==> r == Err(NotFound(AlbumNotFound))
    ensures Has(albums, ItemId, id) ==>
              var owner := GetOne(albums, id).value.userId;
              (r.Ok? <==> caller.id == owner || caller.role == ADMIN)
    ensures r.Err? && Has(albums, ItemId, id) ==> r == Err(Unauthorized("Unauthorized user!"))
    ensures r.Ok? ==> |r.value| == |albums| - 1
    ensures r.Ok? ==> forall x :: x in albums && x.id != id ==> x in r.value
    ensures r.Ok? && Unique(albums, ItemId) ==> !Has(r.value, ItemId, id)
  {
    DeleteItem(albums, id, caller, OwnerOrAdmin, AlbumNotFound)
  }
}

=== FILE: auth.dfy ===
/** `AuthService`: the session state machine over the user table. Every
    operation is a pure transition from the current table (and the clock,
    passed in as `nowMs`) to a new table and an answer, or to the exception
    the service throws, in which case the table is unchanged. */
module Auth {
  import opened Results
  import opened Crypto
  import opened Text
  import opened Tables
  import opened Tokens
  import opened Effects
  import opened Common

  /** The `accessToken` and `refreshToken` cookies set on the response. */
  datatype Cookies = Cookies(accessToken: Token, refreshToken: Token)

  /** Outcome of signup and login: the new table, the public projection sent
      back, and the cookies set. */
  datatype SignedIn = SignedIn(users: seq<User>, user: UserResponse, cookies: Cookies)

  /** Outcome of a refresh: the new table and the rotated cookies. */
  datatype Rotated = Rotated(users: seq<User>, cookies: Cookies)

  /** The cookies issued to a user at a given instant. */
  function IssueCookies(id: string, role: Role, nowMs: nat): (c: Cookies)
    ensures c.accessToken.cls == Access && c.refreshToken.cls == Refresh
    ensures c.accessToken.id == id && c.refreshToken.id == id
    ensures c.accessToken.role == role && c.refreshToken.role == role
    ensures c.accessToken.iat == c.refreshToken.iat == nowMs / 1000
  {
    Cookies(SignAccessToken(id, role, nowMs), SignRefreshToken(id, role, nowMs))
  }

  /** The admin product-key gate of signup passes. */
  predicate AdminGatePasses(cfg: Config, data: SignupData, role: Role) {
    role == ADMIN ==> data.productKey == Some(Encode(ProductKeyText(cfg, data.email, role)))
  }

  /** The keys of a signup body that the code's own values supersede: the
      declared fields, which `SignupData` carries, and `role` and `photoName`,
      which the handler sets. */
  const Superseded: set<string> := {"username", "email", "password", "productKey", "role", "photoName"}

  /** The undeclared keys `{ ...signupData }` writes into the new row. */
  function Spread(data: SignupData): Body {
    data.rest - Superseded
  }

  /** The new row's id: the body's `id` when it sends one, else the store's. */
  function SignupId(data: SignupData, newId: string): string {
    Given(Spread(data), "id", newId)
  }

  /** The new row is stored already confirmed: the body sends `confirmed: true`. */
  predicate SignupConfirmed(data: SignupData) {
    "confirmed" in Spread(data) && Spread(data)["confirmed"] == Flag(true)
  }

  /** `signup(signupData, response, file, role)`. The duplicate check compares
      the e-mail as supplied; the stored e-mail is lower-cased. The whole body
      is spread into the new row, so the store refuses a key that names no
      column or a value of the wrong type, and its unique columns reject
      whatever the duplicate check let through; both happen after the upload. */
  function Signup(cfg: Config, users: seq<User>, data: SignupData, file: Option<Upload>,
                  role: Role, newId: string, nowMs: nat): (r: Reply<SignedIn>)
    ensures Has(users, EmailOf, data.email) ==> r == Reply([], Err(Forbidden("Email already taken!")))
    ensures !AdminGatePasses(cfg, data, role) ==>
              r.effects == [] && r.result.Err? && (r.result.error.Forbidden? || r.result.error.InternalError?)
    ensures !Has(users, EmailOf, data.email) && !AdminGatePasses(cfg, data, role) ==>
              r.result == Err(VerifyAdmin(cfg, data, role).error)
    ensures !Has(users, EmailOf, data.email) && AdminGatePasses(cfg, data, role) && !Fits(Spread(data)) ==>
              r == Reply(UploadEffects(file), Err(InvalidValue))
    ensures r.result.Ok? <==>
              && !Has(users, EmailOf, data.email)
              && AdminGatePasses(cfg, data, role)
              && Fits(Spread(data))
              && !Has(users, IdOf, SignupId(data, newId))
              && !Has(users, EmailOf, ToLowerCase(data.email))
    ensures r.result.Err? && r.effects != [] ==>
              r.effects == UploadEffects(file) && r.result.error.InternalError?
    ensures r.result.Ok? ==>
              var s := r.result.value;
              && |s.users| == |users| + 1
              && s.users[..|users|] == users
              && s.cookies == IssueCookies(SignupId(data, newId), role, nowMs)
              && s.users[|users|] == User(SignupId(data, newId), data.username, ToLowerCase(data.email),
                                          Hash(data.password), role, SignupConfirmed(data),
                                          Some(Hash(s.cookies.refreshToken)), PhotoName(file))
              && s.user == Public(s.users[|users|])
              && r.effects == UploadEffects(file) + [Mailed(ConfirmEmailMail, s.cookies.accessToken)]
    ensures r.result.Ok? && Valid(users) ==> Valid(r.result.value.users)
  {
    if IndexOf(users, EmailOf, data.email).Some? then
      Reply([], Err(Forbidden("Email already taken!")))
    else
      match VerifyAdmin(cfg, data, role)
      case Err(e) => Reply([], Err(e))
      case Ok(fields) =>
        var uploads := UploadEffects(file);
        var email := ToLowerCase(fields.email);
        var id := SignupId(data, newId);
        if !Fits(Spread(data)) then
          Reply(uploads, Err(InvalidValue))
        else if IndexOf(users, IdOf, id).Some? || IndexOf(users, EmailOf, email).Some? then
          Reply(uploads, Err(InternalError("Unique constraint failed")))
        else
          // A `refreshToken` the body sends is overwritten by
          // `updateRefreshToken` just after the row is created.
          var created := User(id, fields.username, email, Hash(fields.password), role, SignupConfirmed(data), None,
                              PhotoName(file));
          var cookies := IssueCookies(created.id, created.role, nowMs);
          var stored := created.(refreshToken := Some(Hash(cookies.refreshToken)));
          var users' := users + [stored];
          assert Valid(users) ==> Valid(users') by {
            if Valid(users) {
              assert forall i :: 0 <= i < |users| ==> users'[i] == users[i];
            }
          }
          Reply(uploads + [Mailed(ConfirmEmailMail, cookies.accessToken)],
                Ok(SignedIn(users', Public(created), cookies)))
  }

  /** Signup with the body stripped to the declared fields, as a whitelisting
      validation pipe would leave it: the evidently intended behaviour, in
      which a new account is never confirmed and always takes the store's id. */
  function SignupWhitelisted(cfg: Config, users: seq<User>, data: SignupData, file: Option<Upload>,
                             role: Role, newId: string, nowMs: nat): (r: Reply<SignedIn>)
    ensures r.result.Ok? <==>
              && !Has(users, EmailOf, data.email)
              && AdminGatePasses(cfg, data, role)
              && !Has(users, IdOf, newId)
              && !Has(users, EmailOf, ToLowerCase(data.email))
    ensures r.result.Ok? ==>
              var s := r.result.value;
              && s.user.id == newId && !s.user.confirmed
              && |s.users| == |users| + 1
              && s.users[|users|].id == newId && !s.users[|users|].confirmed
    ensures r.result.Ok? && Valid(users) ==> Valid(r.result.value.users)
  {
    var declared := data.(rest := map[]);
    assert Spread(declared) == map[];
    Signup(cfg, users, declared, file, role, newId, nowMs)
  }

  /** `login(loginData, response)`. */
  function Login(users: seq<User>, email: string, password: string, nowMs: nat): (r: Result<SignedIn>)
    ensures !Has(users, EmailOf, email) ==> r == Err(Forbidden(UserNotFound))
    ensures Has(users, EmailOf, email) && !Verify(FindUserByEmail(users, email).value.password, password) ==>
              r == Err(Forbidden("Password is not valid!"))
    ensures r.Ok? <==> Has(users, EmailOf, email) && Verify(FindUserByEmail(users, email).value.password, password)
    ensures r.Ok? ==>
              var u := FindUserByEmail(users, email).value;
              var s := r.value;
              && s.cookies == IssueCookies(u.id, u.role, nowMs)
              && s.user == Public(u)
              && |s.users| == |users|
              && (Unique(users, IdOf) ==>
                    forall j :: 0 <= j < |users| ==>
                      s.users[j] == if users[j].id == u.id
                                    then users[j].(refreshToken := Some(Hash(s.cookies.refreshToken)))
                                    else users[j])
  {
    var user :- FindUserByEmail(users, email);
    if !Verify(user.password, password) then
      Err(Forbidden("Password is not valid!"))
    else
      var cookies := IssueCookies(user.id, user.role, nowMs);
      var users' := UpdateRefreshToken(users, user.id, cookies.refreshToken);
      // The re-read of the user after the write projects to the same fields.
      Ok(SignedIn(users', Public(user), cookies))
  }

  /** Login as evidently intended: the e-mail is lower-cased before the
      lookup, just as signup lower-cases it before storing it. */
  function LoginNormalized(users: seq<User>, email: string, password: string, nowMs: nat): (r: Result<SignedIn>)
    ensures r.Ok? <==> Has(users, EmailOf, ToLowerCase(email)) &&
                       Verify(FindUserByEmail(users, ToLowerCase(email)).value.password, password)
    ensures r.Ok? ==> r.value.user.email == ToLowerCase(email)
  {
    Login(users, ToLowerCase(email), password, nowMs)
  }

  /** `handleRefreshToken(request, response, decodedUser)`: the refresh cookie
      must verify against the stored digest; `argon2.verify` throws on the
      null digest left by logout. */
  function HandleRefreshToken(users: seq<User>, cookie: Token, caller: JwtPayload, nowMs: nat): (r: Result<Rotated>)
    ensures !Has(users, IdOf, caller.id) ==> r == Err(Forbidden(UserNotFound))
    ensures Has(users, IdOf, caller.id) && FindUserById(users, caller.id).value.refreshToken.None? ==>
              r.Err? && r.error.InternalError?
    ensures Has(users, IdOf, caller.id) && FindUserById(users, caller.id).value.refreshToken.Some? &&
            !Verify(FindUserById(users, caller.id).value.refreshToken.value, cookie) ==>
              r == Err(Forbidden("Token is not valid!"))
    ensures r.Ok? <==> Has(users, IdOf, caller.id) && FindUserById(users, caller.id).value.refreshToken == Some(Hash(cookie))
    ensures r.Ok? ==>
              var u := FindUserById(users, caller.id).value;
              var s := r.value;
              && s.cookies == IssueCookies(u.id, u.role, nowMs)
              && |s.users| == |users|
              && (Unique(users, IdOf) ==>
                    forall j :: 0 <= j < |users| ==>
                      s.users[j] == if users[j].id == caller.id
                                    then users[j].(refreshToken := Some(Hash(s.cookies.refreshToken)))
                                    else users[j])
  {
    var user :- FindUserById(users, caller.id);
    if user.refreshToken.None? then
      Err(InternalError("pchstr must be a non-empty string"))
    else if !Verify(user.refreshToken.value, cookie) then
      Err(Forbidden("Token is not valid!"))
    else
      var cookies := IssueCookies(user.id, user.role, nowMs);
      Ok(Rotated(UpdateRefreshToken(users, user.id, cookies.refreshToken), cookies))
  }

  /** `confirmEmail(token)`: the path token is only decoded (a token that does
      not decode yields null, whose `.id` throws); the user is resolved before
      the expiry check, so the `!user` branch can never be reached. */
  function ConfirmEmail(users: seq<User>, token: Option<Token>, nowMs: nat): (r: Result<(seq<User>, string)>)
    ensures token.None? ==> r.Err? && r.error.InternalError?
    ensures token.Some? && !Has(users, IdOf, token.value.id) ==> r == Err(Forbidden(UserNotFound))
    ensures token.Some? && Has(users, IdOf, token.value.id) && IsExpired(Decode(token.value), nowMs) ==>
              r == Err(Forbidden("Token is expired!"))
    ensures r.Ok? <==> token.Some? && Has(users, IdOf, token.value.id) && !IsExpired(Decode(token.value), nowMs)
    ensures r.Ok? ==>
              && r.value.1 == "Email Confirmed Successfully!"
              && |r.value.0| == |users|
              && (Unique(users, IdOf) ==>
                    forall j :: 0 <= j < |users| ==>
                      r.value.0[j] == if users[j].id == token.value.id then users[j].(confirmed := true) else users[j])
  {
    if token.None? then
      Err(InternalError("Cannot read properties of null (reading 'id')"))
    else
      var claims := Decode(token.value);
      var user :- FindUserById(users, claims.id);
      if IsExpired(claims, nowMs) then
        Err(Forbidden("Token is expired!"))
      else
        // The second `findUserById` of the source finds the same user again.
        Ok((UpdateById(users, claims.id, (u: User) => u.(confirmed := true)), "Email Confirmed Successfully!"))
  }

  /** `resendConfirmationEmail(decodedUser)`: mails a fresh access token for
      the stored user; the table does not change. */
  function ResendConfirmationEmail(users: seq<User>, caller: JwtPayload, nowMs: nat): (r: Reply<string>)
    ensures !Has(users, IdOf, caller.id) ==> r == Reply([], Err(Forbidden(UserNotFound)))
    ensures r.result.Ok? <==> Has(users, IdOf, caller.id)
    ensures r.result.Ok? ==>
              var u := FindUserById(users, caller.id).value;
              r.effects == [Mailed(ConfirmEmailMail, IssueCookies(u.id, u.role, nowMs).accessToken)]
  {
    match FindUserById(users, caller.id)
    case Err(e) => Reply([], Err(e))
    case Ok(user) =>
      Reply([Mailed(ConfirmEmailMail, SignAccessToken(user.id, user.role, nowMs))],
            Ok("Resend Confirmation Successfully!"))
  }

  /** `forgotPassword(decodedUser)`: mails a reset link carrying a fresh access
      token; the table does not change. */
  function ForgotPassword(users: seq<User>, caller: JwtPayload, nowMs: nat): (r: Reply<string>)
    ensures !Has(users, IdOf, caller.id) ==> r == Reply([], Err(Forbidden(UserNotFound)))
    ensures r.result.Ok? <==> Has(users, IdOf, caller.id)
    ensures r.result.Ok? ==>
              var u := FindUserById(users, caller.id).value;
              r.effects == [Mailed(ResetPasswordMail, IssueCookies(u.id, u.role, nowMs).accessToken)]
  {
    match FindUserById(users, caller.id)
    case Err(e) => Reply([], Err(e))
    case Ok(user) =>
      Reply([Mailed(ResetPasswordMail, SignAccessToken(user.id, user.role, nowMs))],
            Ok("Please check your email to reset password!"))
  }

  /** `resetPassword(resetPasswordData, token)`: same resolution order as
      `confirmEmail`; only the password digest is rewritten. */
  function ResetPassword(users: seq<User>, token: Option<Token>, password: string, nowMs: nat): (r: Result<(seq<User>, string)>)
    ensures token.None? ==> r.Err? && r.error.InternalError?
    ensures token.Some? && !Has(users, IdOf, token.value.id) ==> r == Err(Forbidden(UserNotFound))
    ensures token.Some? && Has(users, IdOf, token.value.id) && IsExpired(Decode(token.value), nowMs) ==>
              r == Err(Forbidden("Token is expired!"))
    ensures r.Ok? <==> token.Some? && Has(users, IdOf, token.value.id) && !IsExpired(Decode(token.value), nowMs)
    ensures r.Ok? ==>
              && |r.value.0| == |users|
              && (Unique(users, IdOf) ==>
                    forall j :: 0 <= j < |users| ==>
                      r.value.0[j] == if users[j].id == token.value.id then users[j].(password := Hash(password)) else users[j])
  {
    if token.None? then
      Err(InternalError("Cannot read properties of null (reading 'id')"))
    else
      var claims := Decode(token.value);
      var user :- FindUserById(users, claims.id);
      if IsExpired(claims, nowMs) then
        Err(Forbidden("Token is expired!"))
      else
        Ok((UpdateById(users, user.id, (u: User) => u.(password := Hash(password))), "Reset Password succesfully!"))
  }

  /** `logout(response, decodedUser)`: clears the stored refresh digest. */
  function Logout(users: seq<User>, caller: JwtPayload): (r: Result<seq<User>>)
    ensures !Has(users, IdOf, caller.id) ==> r == Err(Forbidden(UserNotFound))
    ensures r.Ok? <==> Has(users, IdOf, caller.id)
    ensures r.Ok? ==>
              && |r.value| == |users|
              && (Unique(users, IdOf) ==>
                    forall j :: 0 <= j < |users| ==>
                      r.value[j] == if users[j].id == caller.id then users[j].(refreshToken := None) else users[j])
  {
    var user :- FindUserById(users, caller.id);
    Ok(UpdateById(users, user.id, (u: User) => u.(refreshToken := None)))
  }

  /** `signProductKey({ email, role })`: the encoded digest of the
      product-key text. */
  function SignProductKey(cfg: Config, email: string, role: Role): (k: Encoded<string>)
    ensures VerifyEncoded(k, ProductKeyText(cfg, email, role)) == Ok(true)
  {
    Encode(ProductKeyText(cfg, email, role))
  }
}

=== FILE: auth_properties.dfy ===
/** Properties of the session state machine that relate several operations:
    the table invariant every transition keeps, refresh-token binding and
    rotation, logout, the capability-token flows and the product-key gate. */
module AuthProperties {
  import opened Results
  import opened Crypto
  import opened Text
  import opened Tables
  import opened Tokens
  import opened Effects
  import opened Common
  import opened Auth

  /** The stored refresh digest of a user is the digest of a refresh-class
      token issued for that user's id and role. */
  predicate Bound(users: seq<User>) {
    forall i :: 0 <= i < |users| && users[i].refreshToken.Some? ==>
      var t := users[i].refreshToken.value.preimage;
      t.cls == Refresh && t.id == users[i].id && t.role == users[i].role
  }

  /** The invariant of the user table under the session operations. */
  predicate Sound(users: seq<User>) {
    Valid(users) && Bound(users)
  }

  /** A rewrite of a single user's rows that keeps its id, e-mail and role and
      stores either no refresh digest or one bound to it keeps the table sound. */
  lemma RewriteKeepsSound(users: seq<User>, users': seq<User>)
    requires Sound(users) && |users'| == |users|
    requires forall j :: 0 <= j < |users| ==>
               users'[j].id == users[j].id && users'[j].email == users[j].email && users'[j].role == users[j].role
    requires forall j :: 0 <= j < |users| && users'[j].refreshToken.Some? ==>
               users'[j].refreshToken == users[j].refreshToken ||
               (var t := users'[j].refreshToken.value.preimage;
                t.cls == Refresh && t.id == users[j].id && t.role == users[j].role)
    ensures Sound(users')
  {
    UpdateKeepsValid(users, users');
  }

  lemma SignupKeepsSound(cfg: Config, users: seq<User>, data: SignupData, file: Option<Upload>,
                         role: Role, newId: string, nowMs: nat)
    requires Sound(users)
    requires Signup(cfg, users, data, file, role, newId, nowMs).result.Ok?
    ensures Sound(Signup(cfg, users, data, file, role, newId, nowMs).result.value.users)
  {
    var s := Signup(cfg, users, data, file, role, newId, nowMs).result.value;
    forall i | 0 <= i < |s.users| && s.users[i].refreshToken.Some?
      ensures var t := s.users[i].refreshToken.value.preimage;
              t.cls == Refresh && t.id == s.users[i].id && t.role == s.users[i].role
    {
      if i < |users| {
        assert s.users[i] == s.users[..|users|][i] == users[i];
      }
    }
  }

  lemma LoginKeepsSound(users: seq<User>, email: string, password: string, nowMs: nat)
    requires Sound(users)
    requires Login(users, email, password, nowMs).Ok?
    ensures Sound(Login(users, email, password, nowMs).value.users)
  {
    var s := Login(users, email, password, nowMs).value;
    RewriteKeepsSound(users, s.users);
  }

  lemma RefreshKeepsSound(users: seq<User>, cookie: Token, caller: JwtPayload, nowMs: nat)
    requires Sound(users)
    requires HandleRefreshToken(users, cookie, caller, nowMs).Ok?
    ensures Sound(HandleRefreshToken(users, cookie, caller, nowMs).value.users)
  {
    var s := HandleRefreshToken(users, cookie, caller, nowMs).value;
    RewriteKeepsSound(users, s.users);
  }

  lemma ConfirmEmailKeepsSound(users: seq<User>, token: Option<Token>, nowMs: nat)
    requires Sound(users)
    requires ConfirmEmail(users, token, nowMs).Ok?
    ensures Sound(ConfirmEmail(users, token, nowMs).value.0)
  {
    RewriteKeepsSound(users, ConfirmEmail(users, token, nowMs).value.0);
  }

  lemma ResetPasswordKeepsSound(users: seq<User>, token: Option<Token>, password: string, nowMs: nat)
    requires Sound(users)
    requires ResetPassword(users, token, password, nowMs).Ok?
    ensures Sound(ResetPassword(users, token, password, nowMs).value.0)
  {
    RewriteKeepsSound(users, ResetPassword(users, token, password, nowMs).value.0);
  }

  lemma LogoutKeepsSound(users: seq<User>, caller: JwtPayload)
    requires Sound(users)
    requires Logout(users, caller).Ok?
    ensures Sound(Logout(users, caller).value)
  {
    RewriteKeepsSound(users, Logout(users, caller).value);
  }

  /** In a sound table a refresh succeeds only with a refresh-class cookie that
      was issued to the very user the guard's claims name. */
  lemma RefreshOnlyWithOwnToken(users: seq<User>, cookie: Token, caller: JwtPayload, nowMs: nat)
    requires Sound(users)
    requires HandleRefreshToken(users, cookie, caller, nowMs).Ok?
    ensures cookie.cls == Refresh && cookie.id == caller.id
  {
    var u := FindUserById(users, caller.id).value;
    var i :| 0 <= i < |users| && users[i] == u;
    assert u.refreshToken == Some(Hash(cookie));
    assert users[i].refreshToken.value.preimage == cookie;
  }

  /** Rotation: once a refresh has succeeded at `t1`, the cookie it consumed is
      accepted again exactly when it equals the token that refresh issued,
      which happens only when it was itself signed in the same second. */
  lemma {:induction false} RotationRevokesConsumedToken(users: seq<User>, cookie: Token, caller: JwtPayload, t1: nat, t2: nat)
    requires Valid(users)
    requires HandleRefreshToken(users, cookie, caller, t1).Ok?
    ensures var u := FindUserById(users, caller.id).value;
            var after := HandleRefreshToken(users, cookie, caller, t1).value.users;
            HandleRefreshToken(after, cookie, caller, t2).Ok? <==> cookie == SignRefreshToken(u.id, u.role, t1)
    ensures var after := HandleRefreshToken(users, cookie, caller, t1).value.users;
            cookie.iat != t1 / 1000 ==> HandleRefreshToken(after, cookie, caller, t2) == Err(Forbidden("Token is not valid!"))
  {
    var u := FindUserById(users, caller.id).value;
    var s := HandleRefreshToken(users, cookie, caller, t1).value;
    var i :| 0 <= i < |users| && users[i] == u;
    IndexOfUnique(users, IdOf, caller.id, i);
    assert s.users[i] == users[i].(refreshToken := Some(Hash(s.cookies.refreshToken)));
    assert Unique(s.users, IdOf) by {
      UpdateKeepsValid(users, s.users);
    }
    IndexOfUnique(s.users, IdOf, caller.id, i);
    assert FindUserById(s.users, caller.id) == Ok(s.users[i]);
    // The stored digest is now that of the issued token, which verifies no
    // other cookie.
    VerifyUnique(Hash(s.cookies.refreshToken), s.cookies.refreshToken, cookie);
  }

  /** Logout clears the refresh digest; logging out again changes nothing. */
  lemma {:induction false} LogoutIdempotent(users: seq<User>, caller: JwtPayload)
    requires Valid(users)
    requires Logout(users, caller).Ok?
    ensures Logout(Logout(users, caller).value, caller) == Logout(users, caller)
  {
    var once := Logout(users, caller).value;
    UpdateKeepsValid(users, once);
    assert Has(once, IdOf, caller.id);
    var twice := Logout(once, caller).value;
    forall j | 0 <= j < |once|
      ensures twice[j] == once[j]
    {
      if once[j].id == caller.id {
        assert once[j] == users[j].(refreshToken := None);
      }
    }
    assert twice == once;
  }

  /** After logout no refresh of that user succeeds, whatever cookie is shown:
      the null digest makes `argon2.verify` throw. */
  lemma {:induction false} RefreshAfterLogoutFails(users: seq<User>, caller: JwtPayload, cookie: Token, nowMs: nat)
    requires Valid(users)
    requires Logout(users, caller).Ok?
    ensures HandleRefreshToken(Logout(users, caller).value, cookie, caller, nowMs).Err?
    ensures HandleRefreshToken(Logout(users, caller).value, cookie, caller, nowMs).error.InternalError?
  {
    var after := Logout(users, caller).value;
    var i :| 0 <= i < |users| && users[i].id == caller.id;
    UpdateKeepsValid(users, after);
    IndexOfUnique(after, IdOf, caller.id, i);
    assert FindUserById(after, caller.id) == Ok(after[i]);
  }

  /** Confirming twice leaves the table as the first confirmation left it. */
  lemma {:induction false} ConfirmEmailIdempotent(users: seq<User>, token: Option<Token>, t1: nat, t2: nat)
    requires Valid(users)
    requires ConfirmEmail(users, token, t1).Ok?
    requires ConfirmEmail(ConfirmEmail(users, token, t1).value.0, token, t2).Ok?
    ensures ConfirmEmail(ConfirmEmail(users, token, t1).value.0, token, t2).value.0 == ConfirmEmail(users, token, t1).value.0
  {
    var once := ConfirmEmail(users, token, t1).value.0;
    UpdateKeepsValid(users, once);
    var twice := ConfirmEmail(once, token, t2).value.0;
    assert forall j :: 0 <= j < |once| ==> twice[j] == once[j];
  }

  /** A confirmation link is dead fifteen minutes after it was issued, even
      though its user exists. */
  lemma ConfirmAfterWindowFails(users: seq<User>, id: string, role: Role, issuedMs: nat, nowMs: nat)
    requires Has(users, IdOf, id)
    requires nowMs >= issuedMs + AccessTtl * 1000
    ensures ConfirmEmail(users, Some(SignAccessToken(id, role, issuedMs)), nowMs) == Err(Forbidden("Token is expired!"))
  {
    AccessTokenLifetime(id, role, issuedMs, nowMs);
  }

  /** Confirmation and reset tokens carry no purpose: any token (even a
      refresh token) that one endpoint accepts, the other accepts too, and
      they fail alike. */
  lemma CapabilityTokensInterchangeable(users: seq<User>, token: Option<Token>, password: string, nowMs: nat)
    ensures ConfirmEmail(users, token, nowMs).Ok? <==> ResetPassword(users, token, password, nowMs).Ok?
    ensures ConfirmEmail(users, token, nowMs).Err? ==>
              ResetPassword(users, token, password, nowMs) == Err(ConfirmEmail(users, token, nowMs).error)
  {
  }

  /** The reset leaves the refresh digest (and everything but the password) as
      it was: existing refresh tokens stay usable. */
  lemma {:induction false} ResetKeepsRefreshToken(users: seq<User>, token: Option<Token>, password: string, nowMs: nat,
                                                  cookie: Token, caller: JwtPayload, t2: nat)
    requires Valid(users)
    requires ResetPassword(users, token, password, nowMs).Ok?
    ensures HandleRefreshToken(ResetPassword(users, token, password, nowMs).value.0, cookie, caller, t2).Ok? <==>
            HandleRefreshToken(users, cookie, caller, t2).Ok?
  {
    var after := ResetPassword(users, token, password, nowMs).value.0;
    UpdateKeepsValid(users, after);
    if Has(users, IdOf, caller.id) {
      var i :| 0 <= i < |users| && users[i].id == caller.id;
      IndexOfUnique(users, IdOf, caller.id, i);
      IndexOfUnique(after, IdOf, caller.id, i);
      assert after[i].refreshToken == users[i].refreshToken;
    } else {
      assert !Has(after, IdOf, caller.id);
    }
  }

  /** The key minted by `signProductKey` for an e-mail and ADMIN always passes
      the admin gate of a signup with that e-mail, and it is the only key that
      does. */
  lemma ProductKeyRoundTrip(cfg: Config, data: SignupData)
    ensures data.productKey == Some(SignProductKey(cfg, data.email, ADMIN)) ==> VerifyAdmin(cfg, data, ADMIN).Ok?
    ensures VerifyAdmin(cfg, data, ADMIN).Ok? ==> data.productKey == Some(SignProductKey(cfg, data.email, ADMIN))
  {
  }

  /** The user appended by a signup is found by its id and its e-mail. */
  lemma SignedUpUserIsFound(users: seq<User>, u: User)
    requires Valid(users + [u])
    ensures FindUserById(users + [u], u.id) == Ok(u)
    ensures FindUserByEmail(users + [u], u.email) == Ok(u)
  {
    IndexOfUnique(users + [u], IdOf, u.id, |users|);
    IndexOfUnique(users + [u], EmailOf, u.email, |users|);
  }

  /** The administrator scenario: signup with a minted product key creates an
      unconfirmed ADMIN whose stored refresh digest is that of the refresh
      cookie just issued; a login with the same credentials succeeds; and the
      refresh token from signup is afterwards refused unless login happened in
      the same second. */
  lemma {:induction false} AdminSignupLoginRevokesSignupToken(
    cfg: Config, users: seq<User>, username: string, email: string, password: string,
    file: Option<Upload>, newId: string, t0: nat, t1: nat, t2: nat)
    requires Valid(users)
    requires IsLowerCase(email)
    requires !Has(users, EmailOf, email) && !Has(users, IdOf, newId)
    ensures var data := SignupData(username, email, password, Some(SignProductKey(cfg, email, ADMIN)), map[]);
            var signup := Signup(cfg, users, data, file, ADMIN, newId, t0);
            && signup.result.Ok?
            && signup.result.value.user.role == ADMIN
            && !signup.result.value.user.confirmed
            && Login(signup.result.value.users, email, password, t1).Ok?
            && var caller := Decode(signup.result.value.cookies.refreshToken);
               var cookie := signup.result.value.cookies.refreshToken;
               var login := Login(signup.result.value.users, email, password, t1).value;
               (HandleRefreshToken(login.users, cookie, caller, t2).Ok? <==> t0 / 1000 == t1 / 1000)
  {
    var data := SignupData(username, email, password, Some(SignProductKey(cfg, email, ADMIN)), map[]);
    ToLowerCaseFixesLowerCase(email);
    var signup := Signup(cfg, users, data, file, ADMIN, newId, t0);
    assert signup.result.Ok?;
    var s := signup.result.value;
    var u := s.users[|users|];
    assert s.users == users + [u] by {
      assert s.users == s.users[..|users|] + [u];
    }
    SignedUpUserIsFound(users, u);
    var login := Login(s.users, email, password, t1);
    assert login.Ok?;
    var l := login.value;
    var caller := Decode(s.cookies.refreshToken);
    assert caller.id == newId;
    UpdateKeepsValid(s.users, l.users);
    IndexOfUnique(l.users, IdOf, newId, |users|);
    assert l.users[|users|] == u.(refreshToken := Some(Hash(l.cookies.refreshToken)));
    assert FindUserById(l.users, newId) == Ok(l.users[|users|]);
    RefreshTokensDifferAcrossSeconds(newId, ADMIN, t0, t1);
  }

  /** The duplicate check misses a case variant of a stored e-mail: such a
      signup passes the check and the admin gate, uploads its file, and is
      then refused by the store's unique e-mail column. */
  lemma CaseVariantSignupReachesStore(cfg: Config, users: seq<User>, data: SignupData, file: Option<Upload>,
                                      role: Role, newId: string, nowMs: nat)
    requires !Has(users, EmailOf, data.email) && Has(users, EmailOf, ToLowerCase(data.email))
    requires AdminGatePasses(cfg, data, role)
    ensures var r := Signup(cfg, users, data, file, role, newId, nowMs);
            r.effects == UploadEffects(file) && r.result.Err? && r.result.error.InternalError?
    ensures Fits(Spread(data)) ==>
              Signup(cfg, users, data, file, role, newId, nowMs) ==
              Reply(UploadEffects(file), Err(InternalError("Unique constraint failed")))
  {
  }

  /** As written, login compares the e-mail exactly as typed with stored
      e-mails, which are all lower case: an e-mail with an upper-case letter
      never logs in. */
  lemma MixedCaseLoginFails(users: seq<User>, email: string, password: string, nowMs: nat)
    requires Valid(users)
    requires !IsLowerCase(email)
    ensures Login(users, email, password, nowMs) == Err(Forbidden(UserNotFound))
  {
  }

  /** The concrete input: sign up as "A@x.io", then log in with the same
      e-mail and password. */
  lemma SignupThenLoginAsTypedFails()
    ensures var s := Signup(Config("secret"), [], SignupData("ann", "A@x.io", "Abc123!@", None, map[]), None, USER, "1", 0);
            && s.result.Ok?
            && Login(s.result.value.users, "A@x.io", "Abc123!@", 1000) == Err(Forbidden(UserNotFound))
  {
    var s := Signup(Config("secret"), [], SignupData("ann", "A@x.io", "Abc123!@", None, map[]), None, USER, "1", 0);
    assert !Has([], EmailOf, "A@x.io");
    assert s.result.Ok?;
    assert !IsLowerCase("A@x.io") by {
      assert IsUpper("A@x.io"[0]);
    }
    MixedCaseLoginFails(s.result.value.users, "A@x.io", "Abc123!@", 1000);
  }

  /** As written, a signup whose body also sends `confirmed: true` stores an
      account that is already confirmed, so the e-mail confirmation step is
      skipped. */
  lemma {:induction false} SignupPreConfirmedAsWritten(
    cfg: Config, users: seq<User>, username: string, email: string, password: string,
    file: Option<Upload>, newId: string, nowMs: nat)
    requires Valid(users) && IsLowerCase(email)
    requires !Has(users, EmailOf, email) && !Has(users, IdOf, newId)
    ensures var data := SignupData(username, email, password, None, map["confirmed" := Flag(true)]);
            var r := Signup(cfg, users, data, file, USER, newId, nowMs);
            && r.result.Ok?
            && r.result.value.user.confirmed
            && FindUserById(r.result.value.users, newId).value.confirmed
  {
    var data := SignupData(username, email, password, None, map["confirmed" := Flag(true)]);
    ToLowerCaseFixesLowerCase(email);
    assert Spread(data) == map["confirmed" := Flag(true)];
    var r := Signup(cfg, users, data, file, USER, newId, nowMs);
    assert r.result.Ok?;
    var s := r.result.value;
    var u := s.users[|users|];
    assert s.users == users + [u] by {
      assert s.users == s.users[..|users|] + [u];
    }
    SignedUpUserIsFound(users, u);
  }

  /** Corrected: with the e-mail lower-cased before the lookup, every
      successful signup can log in with the e-mail and password it used. */
  lemma {:induction false} SignupThenLoginNormalized(cfg: Config, users: seq<User>, data: SignupData, file: Option<Upload>,
                                                     role: Role, newId: string, t0: nat, t1: nat)
    requires Valid(users)
    requires Signup(cfg, users, data, file, role, newId, t0).result.Ok?
    ensures LoginNormalized(Signup(cfg, users, data, file, role, newId, t0).result.value.users, data.email, data.password, t1).Ok?
  {
    var s := Signup(cfg, users, data, file, role, newId, t0).result.value;
    var u := s.users[|users|];
    assert s.users == users + [u] by {
      assert s.users == s.users[..|users|] + [u];
    }
    SignedUpUserIsFound(users, u);
  }

  /** An unexpired token naming a stored user resets that user's password:
      the stored digest then verifies the new password. */
  lemma ResetSetsPassword(users: seq<User>, token: Token, password: string, nowMs: nat)
    requires Valid(users)
    requires Has(users, IdOf, token.id) && !IsExpired(Decode(token), nowMs)
    ensures ResetPassword(users, Some(token), password, nowMs).Ok?
    ensures Verify(FindUserById(ResetPassword(users, Some(token), password, nowMs).value.0, token.id).value.password, password)
  {
    var after := ResetPassword(users, Some(token), password, nowMs).value.0;
    var i := IndexOf(users, IdOf, token.id).value;
    UpdateKeepsValid(users, after);
    IndexOfUnique(after, IdOf, token.id, i);
  }

  /** An unexpired token naming a stored user confirms that user's e-mail. */
  lemma ConfirmSetsConfirmed(users: seq<User>, token: Token, nowMs: nat)
    requires Valid(users)
    requires Has(users, IdOf, token.id) && !IsExpired(Decode(token), nowMs)
    ensures ConfirmEmail(users, Some(token), nowMs).Ok?
    ensures FindUserById(ConfirmEmail(users, Some(token), nowMs).value.0, token.id).value.confirmed
  {
    var after := ConfirmEmail(users, Some(token), nowMs).value.0;
    var i := IndexOf(users, IdOf, token.id).value;
    UpdateKeepsValid(users, after);
    IndexOfUnique(after, IdOf, token.id, i);
  }

  /** The link mailed by `forgotPassword` works: presented to `resetPassword`
      before the token expires, it sets the caller's password. */
  lemma ForgotThenReset(users: seq<User>, caller: JwtPayload, nowMs: nat, laterMs: nat, password: string)
    requires Valid(users)
    requires Has(users, IdOf, caller.id)
    requires laterMs < nowMs + AccessTtl * 1000 - 999
    ensures var mail := ForgotPassword(users, caller, nowMs).effects;
            && |mail| == 1 && mail[0].Mailed? && mail[0].kind == ResetPasswordMail
            && ResetPassword(users, Some(mail[0].token), password, laterMs).Ok?
            && Verify(FindUserById(ResetPassword(users, Some(mail[0].token), password, laterMs).value.0, caller.id).value.password,
                      password)
  {
    var u := FindUserById(users, caller.id).value;
    AccessTokenLifetime(u.id, u.role, nowMs, laterMs);
    ResetSetsPassword(users, SignAccessToken(u.id, u.role, nowMs), password, laterMs);
  }

  /** The link mailed by `resendConfirmationEmail` works: presented to
      `confirmEmail` before the token expires, it confirms the caller. */
  lemma ResendThenConfirm(users: seq<User>, caller: JwtPayload, nowMs: nat, laterMs: nat)
    requires Valid(users)
    requires Has(users, IdOf, caller.id)
    requires laterMs < nowMs + AccessTtl * 1000 - 999
    ensures var mail := ResendConfirmationEmail(users, caller, nowMs).effects;
            && |mail| == 1 && mail[0].Mailed? && mail[0].kind == ConfirmEmailMail
            && ConfirmEmail(users, Some(mail[0].token), laterMs).Ok?
            && FindUserById(ConfirmEmail(users, Some(mail[0].token), laterMs).value.0, caller.id).value.confirmed
  {
    var u := FindUserById(users, caller.id).value;
    AccessTokenLifetime(u.id, u.role, nowMs, laterMs);
    ConfirmSetsConfirmed(users, SignAccessToken(u.id, u.role, nowMs), laterMs);
  }

  /** An administrator signup whose product key is non-empty text that
      argon2 cannot parse fails with the library's throw, before any upload. */
  lemma UnparsableProductKeyIsInternalError(cfg: Config, users: seq<User>, data: SignupData, file: Option<Upload>,
                                            newId: string, nowMs: nat)
    requires !Has(users, EmailOf, data.email)
    requires data.productKey.Some? && data.productKey.value.Unparsable? && data.productKey.value.text != ""
    ensures var r := Signup(cfg, users, data, file, ADMIN, newId, nowMs);
            r.effects == [] && r.result.Err? && r.result.error.InternalError?
  {
  }
}

=== FILE: auth_routes.dfy ===
/** `AuthController`: the route table of the session operations, with the
    guard in front of each route and its success status. A guard is judged
    on what the request presents; whether a cookie holds a valid token is
    decided by the guard strategies, which are abstracted into the presence of
    the decoded claims. */
module AuthRoutes {
  import opened Results
  import opened Crypto
  import opened Tables
  import opened Tokens
  import opened Effects
  import opened Common
  import opened Auth
  import opened AuthProperties

  datatype Route =
    | SignupRoute
    | ConfirmEmailRoute
    | ResendConfirmationRoute
    | LoginRoute
    | GoogleLoginRoute
    | GoogleRedirectRoute
    | RefreshTokenRoute
    | ForgotPasswordRoute
    | ResetPasswordRoute
    | LogoutRoute
    | ProductKeyRoute

  datatype Verb = POST | GET | PUT | DELETE

  /** `AtGuard`, `RtGuard`, `RoleGuard` with its `@Roles(...)`, `GoogleGuard`,
      or no guard at all. */
  datatype Guard = Open | AtGuard | RtGuard | RoleGuard(roles: set<Role>) | GoogleGuard

  datatype Endpoint = Endpoint(verb: Verb, path: string, guard: Guard, status: int)

  /** The framework's default success status: 201 for POST, 200 otherwise. */
  function DefaultStatus(verb: Verb): int {
    if verb == POST then 201 else 200
  }

  /** The decorators on each handler of the controller (mounted at `auth`). */
  function Policy(route: Route): (e: Endpoint)
    ensures route != LogoutRoute ==> e.status == DefaultStatus(e.verb)
    ensures route == LogoutRoute ==> e.verb == DELETE && e.status == 204 && e.status != DefaultStatus(e.verb)
  {
    match route
    case SignupRoute => Endpoint(POST, "auth/signup/:role", Open, 201)
    case ConfirmEmailRoute => Endpoint(POST, "auth/confirm-email/:token", AtGuard, 201)
    case ResendConfirmationRoute => Endpoint(POST, "auth/resend-confirmation-email", AtGuard, 201)
    case LoginRoute => Endpoint(POST, "auth/login", Open, 201)
    case GoogleLoginRoute => Endpoint(GET, "auth/login/google", GoogleGuard, 200)
    case GoogleRedirectRoute => Endpoint(GET, "auth/google/redirect", GoogleGuard, 200)
    case RefreshTokenRoute => Endpoint(GET, "auth/refresh-token", RtGuard, 200)
    case ForgotPasswordRoute => Endpoint(POST, "auth/forgot-password", AtGuard, 201)
    case ResetPasswordRoute => Endpoint(PUT, "auth/reset-password/:token", AtGuard, 200)
    case LogoutRoute => Endpoint(DELETE, "auth/logout", AtGuard, 204)
    case ProductKeyRoute => Endpoint(POST, "auth/product-key", RoleGuard({ADMIN}), 201)
  }

  /** What a request presents: the claims of a valid access-token cookie, of
      a valid refresh-token cookie, and whether the Google strategy accepted it. */
  datatype Credentials = Credentials(access: Option<JwtPayload>, refresh: Option<JwtPayload>, google: bool)

  /** Whether a guard lets a request through to its handler. The role guard
      reads the role from the access-token claims. */
  predicate Admits(guard: Guard, c: Credentials) {
    match guard
    case Open => true
    case AtGuard => c.access.Some?
    case RtGuard => c.refresh.Some?
    case RoleGuard(roles) => c.access.Some? && c.access.value.role in roles
    case GoogleGuard => c.google
  }

  /** Signup and login are the only routes open to every request. */
  lemma OpenRoutesAreSignupAndLogin(route: Route)
    ensures (forall c: Credentials :: Admits(Policy(route).guard, c)) <==> route == SignupRoute || route == LoginRoute
  {
    if route != SignupRoute && route != LoginRoute {
      var anonymous := Credentials(None, None, false);
      assert !Admits(Policy(route).guard, anonymous);
    }
  }

  /** The routes that act on the caller's own account, and the two that take a
      capability token in the path, need a valid access token and nothing
      else. */
  lemma AccessTokenRoutes(route: Route, c: Credentials)
    requires route in {ConfirmEmailRoute, ResendConfirmationRoute, ForgotPasswordRoute, ResetPasswordRoute, LogoutRoute}
    ensures Admits(Policy(route).guard, c) <==> c.access.Some?
  {
  }

  /** Only a valid refresh token reaches the refresh handler; an access token
      does not. */
  lemma RefreshRouteNeedsRefreshToken(c: Credentials)
    ensures Admits(Policy(RefreshTokenRoute).guard, c) <==> c.refresh.Some?
  {
  }

  /** Minting a product key is for administrators only. */
  lemma ProductKeyAdminOnly(c: Credentials)
    ensures Admits(Policy(ProductKeyRoute).guard, c) <==> c.access.Some? && c.access.value.role == ADMIN
  {
  }

  /** `POST auth/signup/:role`: the role segment is parsed against the enum
      before the handler runs, so a bad role fails before any lookup. */
  function HandleSignup(cfg: Config, users: seq<User>, data: SignupData, file: Option<Upload>,
                        roleParam: string, newId: string, nowMs: nat): (r: Reply<SignedIn>)
    ensures roleParam != "USER" && roleParam != "ADMIN" ==> r.effects == [] && r.result.Err? && r.result.error.BadRequest?
    ensures r.result.Ok? ==> r.result.value.user.role == ParseRole(roleParam).value
  {
    match ParseRole(roleParam)
    case Err(e) => Reply([], Err(e))
    case Ok(role) => Signup(cfg, users, data, file, role, newId, nowMs)
  }

  /** `PUT auth/reset-password/:token`: the guard answers 401 to a request
      without a valid access cookie; the handler passes on only the body and
      the path token, never the cookie's claims. */
  function HandleResetPassword(users: seq<User>, c: Credentials, token: Option<Token>, password: string,
                               nowMs: nat): (r: Result<(seq<User>, string)>)
    ensures !Admits(Policy(ResetPasswordRoute).guard, c) ==> r == Err(Unauthorized("Unauthorized"))
    ensures c.access.Some? ==> r == ResetPassword(users, token, password, nowMs)
  {
    if !Admits(Policy(ResetPasswordRoute).guard, c) then Err(Unauthorized("Unauthorized"))
    else ResetPassword(users, token, password, nowMs)
  }

  /** The reset route checks only that some access cookie is valid; the
      account it acts on is the one named in the path token, which is decoded
      without any signature check. So a request carrying the access cookie of
      one user and a path token naming another stored account resets that
      other account's password, exactly as that account's own cookie would. */
  lemma ResetActsOnPathTokenAccount(users: seq<User>, c: Credentials, own: Credentials, token: Token,
                                    password: string, nowMs: nat)
    requires Valid(users)
    requires Admits(Policy(ResetPasswordRoute).guard, c) && c.access.value.id != token.id
    requires own.access == Some(JwtPayload(token.id, token.role, token.exp))
    requires Has(users, IdOf, token.id) && !IsExpired(Decode(token), nowMs)
    ensures HandleResetPassword(users, c, Some(token), password, nowMs) ==
            HandleResetPassword(users, own, Some(token), password, nowMs)
    ensures HandleResetPassword(users, c, Some(token), password, nowMs).Ok?
    ensures var after := HandleResetPassword(users, c, Some(token), password, nowMs).value.0;
            Verify(FindUserById(after, token.id).value.password, password)
  {
    ResetSetsPassword(users, token, password, nowMs);
  }
}

=== FILE: catalog.dfy ===
/** The shape shared by the owned catalog resources (singer albums, songs,
    playlists): a row with an id, its descriptive columns, a photo and the id
    of the user who owns it, and the look-up / authorize / write sequence
    their update and delete handlers follow. The services differ only in the
    not-found message and in the ownership rule they apply. */
module Catalog {
  import opened Results
  import opened Tables
  import opened Tokens
  import opened Effects

  /** Descriptive columns by name (name, description, rate, ...), and also
      the request body: `{ ...data }` spreads every key the client sends. */
  type Fields = map<string, string>

  /** `{ ...data }` spread into the stored columns: the body's columns replace
      the stored ones, the rest are kept. */
  function Patch(fields: Fields, body: Fields): (r: Fields)
    ensures r.Keys == fields.Keys + body.Keys
    ensures forall k :: k in body ==> r[k] == body[k]
    ensures forall k :: k in fields && k !in body ==> r[k] == fields[k]
  {
    fields + body
  }

  /** The value a spread leaves in one named column: the body's when it
      carries that key, the current one otherwise. */
  function Override(body: Fields, column: string, current: string): string {
    if column in body then body[column] else current
  }

  /** A body key `id` that renames the row to an id some row already has: the
      store refuses the write (a unique constraint). */
  predicate IdTaken<R>(rows: seq<R>, key: R -> string, id: string, body: Fields) {
    "id" in body && body["id"] != id && Has(rows, key, body["id"])
  }

  /** The error the store raises for a taken id. */
  const UniqueFailed: Error := InternalError("Unique constraint failed")

  /** The body names only columns of the table. A table's descriptive columns
      are fixed by its schema, which is not part of this model; they are a
      parameter of the operations that write a row. */
  predicate Known(body: Fields, columns: set<string>) {
    body.Keys <= columns
  }

  /** The error the store raises for a key that names no column. */
  const UnknownArgument: Error := InternalError("Unknown argument")

  datatype Item = Item(id: string, fields: Fields, photoName: Option<string>, userId: string)

  function ItemId(x: Item): string { x.id }

  /** The columns of an item that are not descriptive: a body key with one of
      these names sets the column itself (`photoName` is then overwritten by
      the upload's name). */
  const ItemColumns: set<string> := {"id", "userId", "photoName"}

  /** The two ownership rules found in the services, by their rejection test
      exactly as written against the id of the owning account (the row's
      `userId`, or the user or singer id itself):
      `id !== owner && role !== ADMIN` and `id !== owner || role !== ADMIN`. */
  datatype Rule = OwnerOrAdmin | OwnerAndAdmin

  predicate Rejects(rule: Rule, caller: JwtPayload, owner: string) {
    match rule
    case OwnerOrAdmin => caller.id != owner && caller.role != ADMIN
    case OwnerAndAdmin => caller.id != owner || caller.role != ADMIN
  }

  /** What each rule lets through. */
  lemma RuleMeaning(caller: JwtPayload, owner: string)
    ensures !Rejects(OwnerOrAdmin, caller, owner) <==> caller.id == owner || caller.role == ADMIN
    ensures !Rejects(OwnerAndAdmin, caller, owner) <==> caller.id == owner && caller.role == ADMIN
  {
  }

  /** `getOne(id)`: NotFound with the service's message for a missing id. */
  function GetOne(items: seq<Item>, id: string, missing: string): (r: Result<Item>)
    ensures r.Ok? <==> Has(items, ItemId, id)
    ensures r.Err? ==> r.error == NotFound(missing)
    ensures r.Ok? ==> r.value in items && r.value.id == id
  {
    match IndexOf(items, ItemId, id)
    case Some(i) => Ok(items[i])
    case None => Err(NotFound(missing))
  }

  /** How a stored row changes under an update: a body key `id` or `userId`
      renames the row or hands it to another owner, the other keys patch the
      descriptive columns, and the photo is the upload's or null. */
  predicate Revised(before: Item, after: Item, body: Fields, file: Option<Upload>) {
    && after.id == Override(body, "id", before.id)
    && after.userId == Override(body, "userId", before.userId)
    && after.fields == Patch(before.fields, body - ItemColumns)
    && after.photoName == PhotoName(file)
  }

  /** The row `Revised` describes. */
  function Revise(item: Item, body: Fields, file: Option<Upload>): Item {
    Item(Override(body, "id", item.id), Patch(item.fields, body - ItemColumns), PhotoName(file),
         Override(body, "userId", item.userId))
  }

  /** Replacing one row of a table with unique ids by a row whose id is that
      row's own or is not in the table keeps the ids unique. */
  lemma ReplaceKeepsUnique<R>(rows: seq<R>, key: R -> string, i: nat, row: R)
    requires i < |rows| && Unique(rows, key)
    requires key(row) == key(rows[i]) || !Has(rows, key, key(row))
    ensures Unique(rows[i := row], key)
  {
    var rows' := rows[i := row];
    forall a, b | 0 <= a < b < |rows'|
      ensures key(rows'[a]) != key(rows'[b])
    {
      if a != i && b != i {
        assert key(rows'[a]) == key(rows[a]) && key(rows'[b]) == key(rows[b]);
      } else if a == i {
        assert key(rows[i]) != key(rows[b]);
      } else {
        assert key(rows[a]) != key(rows[i]);
      }
    }
  }

  /** `update(data, id, decodedUser, file)`: look up (NotFound), authorize by
      the rule (Unauthorized), upload, write; the write fails when the body
      names a key that is no column of the table (the descriptive `columns`
      or the row's own), and then when it renames the row to a taken id. */
  function UpdateItem(items: seq<Item>, id: string, body: Fields, columns: set<string>, file: Option<Upload>,
                      caller: JwtPayload, rule: Rule, missing: string): (r: Reply<(seq<Item>, Item)>)
    ensures !Has(items, ItemId, id) ==> r == Reply([], Err(NotFound(missing)))
    ensures Has(items, ItemId, id) && Rejects(rule, caller, GetOne(items, id, missing).value.userId) ==>
              r == Reply([], Err(Unauthorized("Unauthorized user!")))
    ensures Has(items, ItemId, id) && !Rejects(rule, caller, GetOne(items, id, missing).value.userId) &&
            !Known(body, columns + ItemColumns) ==>
              r == Reply(UploadEffects(file), Err(UnknownArgument))
    ensures Has(items, ItemId, id) && !Rejects(rule, caller, GetOne(items, id, missing).value.userId) &&
            Known(body, columns + ItemColumns) && IdTaken(items, ItemId, id, body) ==>
              r == Reply(UploadEffects(file), Err(UniqueFailed))
    ensures r.result.Ok? <==> && Has(items, ItemId, id)
                              && !Rejects(rule, caller, GetOne(items, id, missing).value.userId)
                              && Known(body, columns + ItemColumns)
                              && !IdTaken(items, ItemId, id, body)
    ensures r.result.Ok? ==> Revised(GetOne(items, id, missing).value, r.result.value.1, body, file)
    ensures r.result.Ok? ==>
              var (items', response) := r.result.value;
              && r.effects == UploadEffects(file)
              && |items'| == |items|
              && (Unique(items, ItemId) ==>
                    forall j :: 0 <= j < |items| ==>
                      if items[j].id == id then Revised(items[j], items'[j], body, file) && response == items'[j]
                      else items'[j] == items[j])
    ensures r.result.Ok? && Unique(items, ItemId) ==> Unique(r.result.value.0, ItemId)
  {
    match IndexOf(items, ItemId, id)
    case None => Reply([], Err(NotFound(missing)))
    case Some(i) =>
      var item := items[i];
      if Rejects(rule, caller, item.userId) then
        Reply([], Err(Unauthorized("Unauthorized user!")))
      else if !Known(body, columns + ItemColumns) then
        Reply(UploadEffects(file), Err(UnknownArgument))
      else if IdTaken(items, ItemId, id, body) then
        Reply(UploadEffects(file), Err(UniqueFailed))
      else
        var updated := Revise(item, body, file);
        var items' := items[i := updated];
        assert Unique(items, ItemId) ==> Unique(items', ItemId) by {
          if Unique(items, ItemId) {
            ReplaceKeepsUnique(items, ItemId, i, updated);
          }
        }
        Reply(UploadEffects(file), Ok((items', updated)))
  }

  /** `delete(id, decodedUser)`: look up (NotFound), authorize by the rule
      (Unauthorized), delete that row only. */
  function DeleteItem(items: seq<Item>, id: string, caller: JwtPayload, rule: Rule, missing: string): (r: Result<seq<Item>>)
    ensures !Has(items, ItemId, id) ==> r == Err(NotFound(missing))
    ensures Has(items, ItemId, id) && Rejects(rule, caller, GetOne(items, id, missing).value.userId) ==>
              r == Err(Unauthorized("Unauthorized user!"))
    ensures r.Ok? <==> Has(items, ItemId, id) && !Rejects(rule, caller, GetOne(items, id, missing).value.userId)
    ensures r.Ok? ==> |r.value| == |items| - 1
    ensures r.Ok? ==> forall x :: x in r.value ==> x in items
    ensures r.Ok? ==> forall x :: x in items && x.id != id ==> x in r.value
    ensures r.Ok? && Unique(items, ItemId) ==> !Has(r.value, ItemId, id) && Unique(r.value, ItemId)
  {
    match IndexOf(items, ItemId, id)
    case None => Err(NotFound(missing))
    case Some(i) =>
      if Rejects(rule, caller, items[i].userId) then
        Err(Unauthorized("Unauthorized user!"))
      else
        RemoveAtDropsOnlyThatRow(items, ItemId, i);
        Ok(RemoveAt(items, i))
  }
}

=== FILE: common.dfy ===
/** `CommonService`: the user record and its store-level helpers shared by the
    auth and user services: lookups that fail loudly, the refresh-token
    write, and the product-key gate on administrator signup. */
module Common {
  import opened Results
  import opened Crypto
  import opened Text
  import opened Tables
  import opened Tokens

  /** A stored user. `password` and `refreshToken` are digests, never plain. */
  datatype User = User(
    id: string,
    username: string,
    email: string,
    password: Digest<string>,
    role: Role,
    confirmed: bool,
    refreshToken: Option<Digest<Token>>,
    photoName: Option<string>)

  /** The public projection `UserResponse`: no password, no refresh token. */
  datatype UserResponse = UserResponse(
    id: string,
    username: string,
    email: string,
    photoName: Option<string>,
    confirmed: bool,
    role: Role)

  function Public(u: User): UserResponse {
    UserResponse(u.id, u.username, u.email, u.photoName, u.confirmed, u.role)
  }

  function IdOf(u: User): string { u.id }
  function EmailOf(u: User): string { u.email }

  /** What the store guarantees of the user table: `id` and `email` are unique
      columns, and every stored e-mail went through `toLowerCase`. */
  predicate Valid(users: seq<User>) {
    && Unique(users, IdOf)
    && Unique(users, EmailOf)
    && forall i :: 0 <= i < |users| ==> IsLowerCase(users[i].email)
  }

  const UserNotFound: string := "User not found!"

  /** `findUserById`: a missing user is Forbidden, not NotFound. */
  function FindUserById(users: seq<User>, id: string): (r: Result<User>)
    ensures r.Ok? <==> Has(users, IdOf, id)
    ensures r.Ok? ==> r.value in users && r.value.id == id
    ensures r.Err? ==> r.error == Forbidden(UserNotFound)
  {
    match IndexOf(users, IdOf, id)
    case Some(i) => Ok(users[i])
    case None => Err(Forbidden(UserNotFound))
  }

  /** `findUserByEmail`: exact comparison with the e-mail as given. */
  function FindUserByEmail(users: seq<User>, email: string): (r: Result<User>)
    ensures r.Ok? <==> Has(users, EmailOf, email)
    ensures r.Ok? ==> r.value in users && r.value.email == email
    ensures r.Err? ==> r.error == Forbidden(UserNotFound)
  {
    match IndexOf(users, EmailOf, email)
    case Some(i) => Ok(users[i])
    case None => Err(Forbidden(UserNotFound))
  }

  /** `prisma.user.update({ where: { id } })` on a row the caller has just
      found: the row with that id is rewritten by `f` and no other row
      changes. */
  function UpdateById(users: seq<User>, id: string, f: User -> User): (r: seq<User>)
    ensures |r| == |users|
    ensures !Has(users, IdOf, id) ==> r == users
    ensures Unique(users, IdOf) ==>
              forall j :: 0 <= j < |users| ==> r[j] == if users[j].id == id then f(users[j]) else users[j]
  {
    match IndexOf(users, IdOf, id)
    case Some(i) => users[i := f(users[i])]
    case None => users
  }

  /** `updateRefreshToken(userId, refreshToken)`: stores the digest of the
      given token on that user and changes nothing else. */
  function UpdateRefreshToken(users: seq<User>, id: string, token: Token): (r: seq<User>)
    ensures |r| == |users|
    ensures Unique(users, IdOf) ==>
              forall j :: 0 <= j < |users| ==>
                r[j] == if users[j].id == id then users[j].(refreshToken := Some(Hash(token))) else users[j]
  {
    UpdateById(users, id, (u: User) => u.(refreshToken := Some(Hash(token))))
  }

  /** A rewrite that keeps every row's id and e-mail keeps the table valid. */
  lemma UpdateKeepsValid(users: seq<User>, users': seq<User>)
    requires Valid(users) && |users'| == |users|
    requires forall j :: 0 <= j < |users| ==> users'[j].id == users[j].id && users'[j].email == users[j].email
    ensures Valid(users')
  {
    forall i, j | 0 <= i < j < |users'|
      ensures IdOf(users'[i]) != IdOf(users'[j]) && EmailOf(users'[i]) != EmailOf(users'[j])
    {
      assert IdOf(users[i]) != IdOf(users[j]) && EmailOf(users[i]) != EmailOf(users[j]);
    }
    assert forall i :: 0 <= i < |users'| ==> users'[i].email == users[i].email;
  }

  /** A value of a request body: a text field of the multipart form, or a
      boolean of a JSON body. */
  datatype Value = Text(text: string) | Flag(flag: bool)

  /** A request body as the client sends it, key by key. The sign-up and
      user-update handlers spread every key into the row they write. */
  type Body = map<string, Value>

  /** JavaScript truthiness of a body value. */
  predicate Truthy(v: Value) {
    match v
    case Text(s) => s != ""
    case Flag(b) => b
  }

  /** The text a body key sets, or the current value when the key is absent. */
  function Given(body: Body, column: string, current: string): string {
    if column in body && body[column].Text? then body[column].text else current
  }

  /** The store refuses a value of the wrong type for its column. */
  const InvalidValue: Error := InternalError("Invalid value provided")

  /** The columns of the user table: the ones the code reads or writes. */
  const UserColumns: set<string> :=
    {"id", "username", "email", "password", "role", "confirmed", "refreshToken", "photoName"}

  /** The store accepts the body as column values: every key names a column,
      `id`, `username`, `email` and `refreshToken` are text, `role` is the
      name of a role, `confirmed` a boolean. */
  predicate Fits(body: Body) {
    && body.Keys <= UserColumns
    && ("id" in body ==> body["id"].Text?)
    && ("username" in body ==> body["username"].Text?)
    && ("email" in body ==> body["email"].Text?)
    && ("refreshToken" in body ==> body["refreshToken"].Text?)
    && ("role" in body ==> body["role"].Text? && ParseRole(body["role"].text).Ok?)
    && ("confirmed" in body ==> body["confirmed"].Flag?)
  }

  /** Server configuration: `PRODUCT_KEY_SECRET`. The token secrets are
      abstracted into the token class. */
  datatype Config = Config(productKeySecret: string)

  /** The signup body: the fields `CreateSignupDto` declares, and `rest`, the
      other keys the client sent. The product key is whatever string the
      client sent: normally the one `signProductKey` returned, but any text is
      accepted by the DTO. */
  datatype SignupData = SignupData(
    username: string,
    email: string,
    password: string,
    productKey: Option<Encoded<string>>,
    rest: Body)

  /** The signup body after `delete signupData.productKey`. */
  datatype NewUserData = NewUserData(username: string, email: string, password: string)

  /** The plain text a product key is the digest of: `${email}-${role}-${secret}`. */
  function ProductKeyText(cfg: Config, email: string, role: Role): string {
    email + "-" + RoleName(role) + "-" + cfg.productKeySecret
  }

  /** `!signupData.productKey`: an absent key and the empty string are both
      falsy. */
  predicate KeyMissing(key: Option<Encoded<string>>) {
    key.None? || key.value == Unparsable("")
  }

  /** `verifyAdmin(signupData, role)`: no check unless the role is ADMIN; for
      ADMIN the key must be present and verify against the product-key text
      of the e-mail as supplied, and `argon2.verify` throws on a key it cannot
      parse. On success the key is stripped. */
  function VerifyAdmin(cfg: Config, data: SignupData, role: Role): (r: Result<NewUserData>)
    ensures role != ADMIN ==> r.Ok?
    ensures role == ADMIN && KeyMissing(data.productKey) ==> r == Err(Forbidden("Product key not found!"))
    ensures role == ADMIN ==>
              (r.Ok? <==> data.productKey == Some(Encode(ProductKeyText(cfg, data.email, role))))
    ensures role == ADMIN && !KeyMissing(data.productKey) && data.productKey.value.Unparsable? ==>
              r.Err? && r.error.InternalError?
    ensures role == ADMIN && data.productKey.Some? && data.productKey.value.Phc? && r.Err? ==>
              r == Err(Forbidden("Product key is not valid!"))
    ensures r.Ok? ==> r.value == NewUserData(data.username, data.email, data.password)
  {
    if role != ADMIN then
      Ok(NewUserData(data.username, data.email, data.password))
    else if KeyMissing(data.productKey) then
      Err(Forbidden("Product key not found!"))
    else
      match VerifyEncoded(data.productKey.value, ProductKeyText(cfg, data.email, role))
      case Err(e) => Err(e)
      case Ok(valid) =>
        if !valid then Err(Forbidden("Product key is not valid!"))
        else Ok(NewUserData(data.username, data.email, data.password))
  }
}

=== FILE: crypto.dfy ===
/** The one-way hasher (argon2 in the source), abstracted as a symbolic,
    injective digest: `Hash(x)` is the term `Argon2(x)`, and verification
    holds exactly when the digest is the hash of the candidate. Salting is
    not modelled; the encoded string form of a digest is modelled only as far
    as whether `argon2.verify` can parse it. */
module Crypto {
  import opened Results

  datatype Digest<T> = Argon2(preimage: T)

  function Hash<T>(x: T): Digest<T> {
    Argon2(x)
  }

  /** `argon2.verify(digest, plain)` for a well-formed digest. */
  predicate Verify<T(==)>(d: Digest<T>, x: T) {
    d == Hash(x)
  }

  /** Hashing is injective: equal digests come from equal inputs. */
  lemma HashInjective<T>(a: T, b: T)
    ensures Hash(a) == Hash(b) <==> a == b
  {
  }

  /** A digest verifies exactly one input: the one it was made from. */
  lemma VerifyUnique<T>(d: Digest<T>, a: T, b: T)
    requires Verify(d, a)
    ensures Verify(d, b) <==> a == b
  {
    HashInjective(a, b);
  }

  /** A string a client hands over as a digest: either the encoding of some
      digest (what `hash` returns), or text that the argon2 library cannot
      parse as one; `text` may be anything, the empty string included. */
  datatype Encoded<T> = Phc(digest: Digest<T>) | Unparsable(text: string)

  /** The string `hash(x)` returns. */
  function Encode<T>(x: T): Encoded<T> {
    Phc(Hash(x))
  }

  /** `argon2.verify(encoded, plain)` on an arbitrary string: the library
      throws on text it cannot parse (the message depends on how the text is
      malformed; the model keeps the one for a missing leading `$`), and
      otherwise answers whether the encoding is that of `x`'s hash. */
  function VerifyEncoded<T(==)>(e: Encoded<T>, x: T): (r: Result<bool>)
    ensures r.Err? <==> e.Unparsable?
    ensures r.Err? ==> r.error.InternalError?
    ensures r.Ok? ==> (r.value <==> e == Encode(x))
  {
    match e
    case Unparsable(_) => Err(InternalError("pchstr must contain a $ as first char"))
    case Phc(d) => Ok(Verify(d, x))
  }
}

=== FILE: effects.dfy ===
/** Calls into collaborators that the model does not execute: file uploads
    and outgoing mail. An operation returns the calls it made, in order,
    beside its outcome, so that a call made before a failure stays visible. */
module Effects {
  import opened Results
  import opened Tokens

  /** An uploaded multipart file; only its original name is modelled. */
  datatype Upload = Upload(originalName: string)

  /** Which link a mail carries: `confirm-email/<token>` or
      `reset-password/<token>`. */
  datatype MailKind = ConfirmEmailMail | ResetPasswordMail

  datatype Effect =
    | Uploaded(fileName: string)
    | Mailed(kind: MailKind, token: Token)

  datatype Reply<+T> = Reply(effects: seq<Effect>, result: Result<T>)

  /** `file ? file.originalname : null`. */
  function PhotoName(file: Option<Upload>): Option<string> {
    match file
    case Some(f) => Some(f.originalName)
    case None => None
  }

  /** `if (file) uploadService.upload(file.originalname, ...)`. */
  function UploadEffects(file: Option<Upload>): seq<Effect> {
    match file
    case Some(f) => [Uploaded(f.originalName)]
    case None => []
  }
}

=== FILE: playlists.dfy ===
/** `PlaylistService`: create stamps the caller as owner; update and delete
    look the playlist up first and then, as written, let a caller through
    only if it both owns the playlist AND is an ADMIN. Create and update
    spread the body into the row, so a body key `id` names the row. `UpdateIntended` and
    `DeleteIntended` apply the owner-or-admin rule. */
module PlaylistService {
  import opened Results
  import opened Tables
  import opened Tokens
  import opened Effects
  import opened Catalog

  const PlaylistNotFound: string := "Playlist not found!"

  /** `getOne(playlistId)`. */
  function GetOne(playlists: seq<Item>, id: string): (r: Result<Item>)
    ensures r.Ok? <==> Has(playlists, ItemId, id)
    ensures r.Err? ==> r.error == NotFound(PlaylistNotFound)
    ensures r.Ok? ==> r.value in playlists && r.value.id == id
  {
    Catalog.GetOne(playlists, id, PlaylistNotFound)
  }

  /** `create(playlistData, decodedUser, file)`: the new playlist belongs to
      the caller whatever `userId` the body names; its id is the store's new
      one unless the body names one; the upload starts before the row is
      written, and the store refuses a key that names no column and then an
      id that is already taken. */
  function Create(playlists: seq<Item>, body: Fields, columns: set<string>, caller: JwtPayload,
                  file: Option<Upload>, newId: string): (r: Reply<(seq<Item>, Item)>)
    ensures r.effects == UploadEffects(file)
    ensures !Known(body, columns + ItemColumns) ==> r.result == Err(UnknownArgument)
    ensures Known(body, columns + ItemColumns) && Has(playlists, ItemId, Override(body, "id", newId)) ==>
              r.result == Err(UniqueFailed)
    ensures r.result.Ok? <==> Known(body, columns + ItemColumns) && !Has(playlists, ItemId, Override(body, "id", newId))
    ensures r.result.Ok? ==>
              var (playlists', created) := r.result.value;
              && created.id == Override(body, "id", newId)
              && created.userId == caller.id
              && created.fields == body - ItemColumns
              && created.photoName == PhotoName(file)
              && playlists' == playlists + [created]
    ensures r.result.Ok? && Unique(playlists, ItemId) ==> Unique(r.result.value.0, ItemId)
  {
    var uploads := UploadEffects(file);
    var pid := Override(body, "id", newId);
    if !Known(body, columns + ItemColumns) then
      Reply(uploads, Err(UnknownArgument))
    else if IndexOf(playlists, ItemId, pid).Some? then
      Reply(uploads, Err(UniqueFailed))
    else
      var created := Item(pid, body - ItemColumns, PhotoName(file), caller.id);
      var playlists' := playlists + [created];
      assert Unique(playlists, ItemId) ==> Unique(playlists', ItemId) by {
        assert forall i :: 0 <= i < |playlists| ==> playlists'[i] == playlists[i];
      }
      Reply(uploads, Ok((playlists', created)))
  }

  /** `update(playlistData, playlistId, decodedUser, file)` as written. */
  function Update(playlists: seq<Item>, id: string, body: Fields, columns: set<string>, file: Option<Upload>,
                  caller: JwtPayload): (r: Reply<(seq<Item>, Item)>)
    ensures !Has(playlists, ItemId, id) ==> r == Reply([], Err(NotFound(PlaylistNotFound)))
    ensures Has(playlists, ItemId, id) ==>
              var owner := GetOne(playlists, id).value.userId;
              (r.result.Ok? <==> caller.id == owner && caller.role == ADMIN
                                  && Known(body, columns + ItemColumns) && !IdTaken(playlists, ItemId, id, body))
    ensures Has(playlists, ItemId, id) ==>
              var owner := GetOne(playlists, id).value.userId;
              !(caller.id == owner && caller.role == ADMIN) ==> r == Reply([], Err(Unauthorized("Unauthorized user!")))
    ensures r.result.Ok? ==>
              var (before, after) := (GetOne(playlists, id).value, r.result.value.1);
              && r.effects == UploadEffects(file)
              && after.id == Override(body, "id", id)
              && after.userId == Override(body, "userId", before.userId)
              && after.photoName == PhotoName(file)
              && after.fields == Patch(before.fields, body - ItemColumns)
  {
    UpdateItem(playlists, id, body, columns, file, caller, OwnerAndAdmin, PlaylistNotFound)
  }

  /** `delete(playlistId, decodedUser)` as written. */
  function Delete(playlists: seq<Item>, id: string, caller: JwtPayload): (r: Result<seq<Item>>)
    ensures !Has(playlists, ItemId, id) ==> r == Err(NotFound(PlaylistNotFound))
    ensures Has(playlists, ItemId, id) ==>
              var owner := GetOne(playlists, id).value.userId;
              (r.Ok? <==> caller.id == owner && caller.role == ADMIN)
    ensures r.Ok? ==> forall x :: x in playlists && x.id != id ==> x in r.value
    ensures r.Ok? && Unique(playlists, ItemId) ==> !Has(r.value, ItemId, id)
  {
    DeleteItem(playlists, id, caller, OwnerAndAdmin, PlaylistNotFound)
  }

  /** As written, a user who creates a playlist cannot afterwards update or
      delete it unless that user is an ADMIN. */
  lemma {:induction false} CreatorDeniedAsWritten(playlists: seq<Item>, body: Fields, columns: set<string>,
                                                  caller: JwtPayload, file: Option<Upload>, newId: string,
                                                  patch: Fields)
    requires Unique(playlists, ItemId)
    requires Create(playlists, body, columns, caller, file, newId).result.Ok?
    requires caller.role == USER
    ensures var (after, created) := Create(playlists, body, columns, caller, file, newId).result.value;
            && Update(after, created.id, patch, columns, None, caller).result == Err(Unauthorized("Unauthorized user!"))
            && Delete(after, created.id, caller) == Err(Unauthorized("Unauthorized user!"))
  {
    var (after, created) := Create(playlists, body, columns, caller, file, newId).result.value;
    IndexOfUnique(after, ItemId, created.id, |playlists|);
    assert GetOne(after, created.id).value.userId == caller.id;
  }

  /** Update with the evidently intended owner-or-admin rule. */
  function UpdateIntended(playlists: seq<Item>, id: string, body: Fields, columns: set<string>, file: Option<Upload>,
                          caller: JwtPayload): (r: Reply<(seq<Item>, Item)>)
    ensures !Has(playlists, ItemId, id) ==> r == Reply([], Err(NotFound(PlaylistNotFound)))
    ensures Has(playlists, ItemId, id) ==>
              var owner := GetOne(playlists, id).value.userId;
              (r.result.Ok? <==> (caller.id == owner || caller.role == ADMIN)
                                  && Known(body, columns + ItemColumns) && !IdTaken(playlists, ItemId, id, body))
  {
    UpdateItem(playlists, id, body, columns, file, caller, OwnerOrAdmin, PlaylistNotFound)
  }

  /** Delete with the evidently intended owner-or-admin rule. */
  function DeleteIntended(playlists: seq<Item>, id: string, caller: JwtPayload): (r: Result<seq<Item>>)
    ensures !Has(playlists, ItemId, id) ==> r == Err(NotFound(PlaylistNotFound))
    ensures Has(playlists, ItemId, id) ==>
              var owner := GetOne(playlists, id).value.userId;
              (r.Ok? <==> caller.id == owner || caller.role == ADMIN)
  {
    DeleteItem(playlists, id, caller, OwnerOrAdmin, PlaylistNotFound)
  }

  /** Corrected: whoever creates a playlist may update and delete it. */
  lemma {:induction false} CreatorMayMutate(playlists: seq<Item>, body: Fields, columns: set<string>,
                                            caller: JwtPayload, file: Option<Upload>, newId: string,
                                            patch: Fields)
    requires Unique(playlists, ItemId)
    requires Create(playlists, body, columns, caller, file, newId).result.Ok?
    ensures var (after, created) := Create(playlists, body, columns, caller, file, newId).result.value;
            && (UpdateIntended(after, created.id, patch, columns, None, caller).result.Ok? <==>
                Known(patch, columns + ItemColumns) && !IdTaken(after, ItemId, created.id, patch))
            && DeleteIntended(after, created.id, caller).Ok?
  {
    var (after, created) := Create(playlists, body, columns, caller, file, newId).result.value;
    IndexOfUnique(after, ItemId, created.id, |playlists|);
    assert GetOne(after, created.id).value.userId == caller.id;
  }
}

=== FILE: results.dfy ===
/** Outcomes of the service operations: the HTTP exception classes the
    services throw, and a failure-compatible Result so that `:-` propagates
    the first exception just as an `await` that throws does. */
module Results {

  /** The exception classes raised by the services. `InternalError` stands for
      an error thrown by a library or the store (a TypeError, a unique
      constraint violation), which the framework answers with status 500. */
  datatype Error =
    | Forbidden(message: string)
    | NotFound(message: string)
    | Unauthorized(message: string)
    | BadRequest(message: string)
    | InternalError(message: string)

  datatype Option<+T> = None | Some(value: T)

  datatype Result<+T> = Ok(value: T) | Err(error: Error) {

    predicate IsFailure() {
      Err?
    }

    function PropagateFailure<U>(): Result<U>
      requires Err?
    {
      Err(error)
    }

    function Extract(): T
      requires Ok?
    {
      value
    }
  }
}

=== FILE: singers.dfy ===
/** `SingerService`: a singer is authorized against its own id (the caller's
    id must equal the singer id, or the caller is an ADMIN), and update and
    delete authorize before they look the singer up. Update starts the upload
    before the look-up, so a NotFound can follow an upload, and it spreads the
    body into the row, so a body key `id` renames the singer. */
module SingerService {
  import opened Results
  import opened Tables
  import opened Tokens
  import opened Effects
  import opened Catalog

  datatype Singer = Singer(id: string, fields: Fields, photoName: Option<string>)

  function SingerId(s: Singer): string { s.id }

  const SingerNotFound: string := "Singer not found!"

  /** `getOne(singerId)`. */
  function GetOne(singers: seq<Singer>, id: string): (r: Result<Singer>)
    ensures r.Ok? <==> Has(singers, SingerId, id)
    ensures r.Err? ==> r.error == NotFound(SingerNotFound)
    ensures r.Ok? ==> r.value in singers && r.value.id == id
  {
    match IndexOf(singers, SingerId, id)
    case Some(i) => Ok(singers[i])
    case None => Err(NotFound(SingerNotFound))
  }


  /** The columns of a singer that are not descriptive: a body key `id`
      renames the singer, and `photoName` is overwritten by the upload's name. */
  const SingerColumns: set<string> := {"id", "photoName"}

  /** `update(singerId, singerData, file, decodedUser)`: authorize, upload,
      look up, write; the write fails when the body names a key that is no
      column of the table (the descriptive `columns` or the singer's own), and
      then when it renames the singer to a taken id. */
  function Update(singers: seq<Singer>, singerId: string, body: Fields, columns: set<string>, file: Option<Upload>,
                  caller: JwtPayload): (r: Reply<(seq<Singer>, Singer)>)
    ensures Rejects(OwnerOrAdmin, caller, singerId) ==> r == Reply([], Err(Unauthorized("Unauthorized user!")))
    ensures !Rejects(OwnerOrAdmin, caller, singerId) && !Has(singers, SingerId, singerId) ==>
              r == Reply(UploadEffects(file), Err(NotFound(SingerNotFound)))
    ensures !Rejects(OwnerOrAdmin, caller, singerId) && Has(singers, SingerId, singerId) &&
            !Known(body, columns + SingerColumns) ==>
              r == Reply(UploadEffects(file), Err(UnknownArgument))
    ensures !Rejects(OwnerOrAdmin, caller, singerId) && Has(singers, SingerId, singerId) &&
            Known(body, columns + SingerColumns) && IdTaken(singers, SingerId, singerId, body) ==>
              r == Reply(UploadEffects(file), Err(UniqueFailed))
    ensures r.result.Ok? <==> && !Rejects(OwnerOrAdmin, caller, singerId)
                              && Has(singers, SingerId, singerId)
                              && Known(body, columns + SingerColumns)
                              && !IdTaken(singers, SingerId, singerId, body)
    ensures r.result.Ok? ==>
              var (singers', response) := r.result.value;
              && r.effects == UploadEffects(file)
              && |singers'| == |singers|
              && (Unique(singers, SingerId) ==>
                    forall j :: 0 <= j < |singers| ==>
                      if singers[j].id == singerId then
                        && singers'[j].id == Override(body, "id", singerId)
                        && singers'[j].fields == Patch(singers[j].fields, body - SingerColumns)
                        && singers'[j].photoName == PhotoName(file)
                        && response == singers'[j]
                      else singers'[j] == singers[j])
    ensures r.result.Ok? && Unique(singers, SingerId) ==> Unique(r.result.value.0, SingerId)
  {
    if Rejects(OwnerOrAdmin, caller, singerId) then
      Reply([], Err(Unauthorized("Unauthorized user!")))
    else
      var uploads := UploadEffects(file);
      match IndexOf(singers, SingerId, singerId)
      case None => Reply(uploads, Err(NotFound(SingerNotFound)))
      case Some(i) =>
        if !Known(body, columns + SingerColumns) then
          Reply(uploads, Err(UnknownArgument))
        else if IdTaken(singers, SingerId, singerId, body) then
          Reply(uploads, Err(UniqueFailed))
        else
          var updated := Singer(Override(body, "id", singerId), Patch(singers[i].fields, body - SingerColumns),
                                PhotoName(file));
          assert Unique(singers, SingerId) ==> Unique(singers[i := updated], SingerId) by {
            if Unique(singers, SingerId) {
              ReplaceKeepsUnique(singers, SingerId, i, updated);
            }
          }
          Reply(uploads, Ok((singers[i := updated], updated)))
  }

  /** `delete(singerId, decodedUser)`. */
  function Delete(singers: seq<Singer>, singerId: string, caller: JwtPayload): (r: Result<seq<Singer>>)
    ensures Rejects(OwnerOrAdmin, caller, singerId) ==> r == Err(Unauthorized("Unauthorized user!"))
    ensures !Rejects(OwnerOrAdmin, caller, singerId) && !Has(singers, SingerId, singerId) ==> r == Err(NotFound(SingerNotFound))
    ensures r.Ok? <==> !Rejects(OwnerOrAdmin, caller, singerId) && Has(singers, SingerId, singerId)
    ensures r.Ok? ==> |r.value| == |singers| - 1
    ensures r.Ok? ==> forall s :: s in r.value ==> s in singers
    ensures r.Ok? ==> forall s :: s in singers && s.id != singerId ==> s in r.value
    ensures r.Ok? && Unique(singers, SingerId) ==> !Has(r.value, SingerId, singerId) && Unique(r.value, SingerId)
  {
    if Rejects(OwnerOrAdmin, caller, singerId) then
      Err(Unauthorized("Unauthorized user!"))
    else
      match IndexOf(singers, SingerId, singerId)
      case None => Err(NotFound(SingerNotFound))
      case Some(i) =>
        RemoveAtDropsOnlyThatRow(singers, SingerId, i);
        Ok(RemoveAt(singers, i))
  }
}

=== FILE: songs.dfy ===
/** `SongService`: update and delete look the song up first and then, as
    written, let a caller through only if it both owns the song AND is an
    ADMIN. `UpdateIntended` and `DeleteIntended` apply the owner-or-admin rule
    the other services use. Adding a song to a playlist checks nothing. */
module SongService {
  import opened Results
  import opened Tables
  import opened Tokens
  import opened Effects
  import opened Catalog

  const SongNotFound: string := "Song not found!"

  /** `getOne(songId)`. */
  function GetOne(songs: seq<Item>, id: string): (r: Result<Item>)
    ensures r.Ok? <==> Has(songs, ItemId, id)
    ensures r.Err? ==> r.error == NotFound(SongNotFound)
    ensures r.Ok? ==> r.value in songs && r.value.id == id
  {
    Catalog.GetOne(songs, id, SongNotFound)
  }

  /** `update(songData, songId, decodedUser, file)` as written. */
  function Update(songs: seq<Item>, id: string, body: Fields, columns: set<string>, file: Option<Upload>,
                  caller: JwtPayload): (r: Reply<(seq<Item>, Item)>)
    ensures !Has(songs, ItemId, id) ==> r == Reply([], Err(NotFound(SongNotFound)))
    ensures Has(songs, ItemId, id) ==>
              var owner := GetOne(songs, id).value.userId;
              (r.result.Ok? <==> caller.id == owner && caller.role == ADMIN
                                  && Known(body, columns + ItemColumns) && !IdTaken(songs, ItemId, id, body))
    ensures Has(songs, ItemId, id) ==>
              var owner := GetOne(songs, id).value.userId;
              !(caller.id == owner && caller.role == ADMIN) ==> r == Reply([], Err(Unauthorized("Unauthorized user!")))
    ensures r.result.Ok? ==>
              && r.effects == UploadEffects(file)
              && Revised(GetOne(songs, id).value, r.result.value.1, body, file)
  {
    UpdateItem(songs, id, body, columns, file, caller, OwnerAndAdmin, SongNotFound)
  }

  /** `delete(songId, decodedUser)` as written. */
  function Delete(songs: seq<Item>, id: string, caller: JwtPayload): (r: Result<seq<Item>>)
    ensures !Has(songs, ItemId, id) ==> r == Err(NotFound(SongNotFound))
    ensures Has(songs, ItemId, id) ==>
              var owner := GetOne(songs, id).value.userId;
              (r.Ok? <==> caller.id == owner && caller.role == ADMIN)
    ensures r.Ok? ==> forall x :: x in songs && x.id != id ==> x in r.value
    ensures r.Ok? && Unique(songs, ItemId) ==> !Has(r.value, ItemId, id)
  {
    DeleteItem(songs, id, caller, OwnerAndAdmin, SongNotFound)
  }

  /** As written, the owner of a song who is not an ADMIN can neither update
      nor delete it. */
  lemma OwnerDeniedAsWritten(songs: seq<Item>, id: string, body: Fields, columns: set<string>,
                             file: Option<Upload>, caller: JwtPayload)
    requires Has(songs, ItemId, id)
    requires caller.id == GetOne(songs, id).value.userId && caller.role == USER
    ensures Update(songs, id, body, columns, file, caller) == Reply([], Err(Unauthorized("Unauthorized user!")))
    ensures Delete(songs, id, caller) == Err(Unauthorized("Unauthorized user!"))
  {
  }

  /** Update with the evidently intended owner-or-admin rule. */
  function UpdateIntended(songs: seq<Item>, id: string, body: Fields, columns: set<string>, file: Option<Upload>,
                          caller: JwtPayload): (r: Reply<(seq<Item>, Item)>)
    ensures !Has(songs, ItemId, id) ==> r == Reply([], Err(NotFound(SongNotFound)))
    ensures Has(songs, ItemId, id) ==>
              var owner := GetOne(songs, id).value.userId;
              (r.result.Ok? <==> (caller.id == owner || caller.role == ADMIN)
                                  && Known(body, columns + ItemColumns) && !IdTaken(songs, ItemId, id, body))
  {
    UpdateItem(songs, id, body, columns, file, caller, OwnerOrAdmin, SongNotFound)
  }

  /** Delete with the evidently intended owner-or-admin rule. */
  function DeleteIntended(songs: seq<Item>, id: string, caller: JwtPayload): (r: Result<seq<Item>>)
    ensures !Has(songs, ItemId, id) ==> r == Err(NotFound(SongNotFound))
    ensures Has(songs, ItemId, id) ==>
              var owner := GetOne(songs, id).value.userId;
              (r.Ok? <==> caller.id == owner || caller.role == ADMIN)
  {
    DeleteItem(songs, id, caller, OwnerOrAdmin, SongNotFound)
  }

  /** A row of the join table `SongsOnPlaylists`. */
  datatype SongOnPlaylist = SongOnPlaylist(songId: string, playlistId: string)

  /** `pushSongToPlaylist(songId, playlistId)`: creates the link without any
      authorization or existence check; the existing links stay as they were. */
  function PushSongToPlaylist(links: seq<SongOnPlaylist>, songId: string, playlistId: string): (r: (seq<SongOnPlaylist>, SongOnPlaylist))
    ensures r.1.songId == songId && r.1.playlistId == playlistId
    ensures |r.0| == |links| + 1 && r.0[..|links|] == links && r.0[|links|] == r.1
  {
    var link := SongOnPlaylist(songId, playlistId);
    (links + [link], link)
  }

  /** The songs a playlist holds according to the link table. */
  function SongsOn(links: seq<SongOnPlaylist>, playlistId: string): set<string> {
    set l | l in links && l.playlistId == playlistId :: l.songId
  }

  /** Pushing a song adds it to that playlist and changes no other playlist. */
  lemma PushAddsToThatPlaylistOnly(links: seq<SongOnPlaylist>, songId: string, playlistId: string, p: string)
    ensures SongsOn(PushSongToPlaylist(links, songId, playlistId).0, p) ==
            SongsOn(links, p) + (if p == playlistId then {songId} else {})
  {
  }
}

=== FILE: tables.dfy ===
/** A store table as the sequence of its rows, in the order the store lists
    them. Lookups by a unique column find the first matching row; `findMany`
    with `skip`/`take` is a window of that sequence. */
module Tables {
  import opened Results

  /** Position of the first row whose `key` column equals `k`. */
  function IndexOf<R, K(==)>(rows: seq<R>, key: R -> K, k: K): (r: Option<nat>)
    ensures r.Some? ==> r.value < |rows| && key(rows[r.value]) == k
    ensures r.Some? ==> forall j :: 0 <= j < r.value ==> key(rows[j]) != k
    ensures r.None? <==> forall j :: 0 <= j < |rows| ==> key(rows[j]) != k
  {
    if rows == [] then None
    else if key(rows[0]) == k then Some(0)
    else
      match IndexOf(rows[1..], key, k)
      case None => None
      case Some(j) => Some(j + 1)
  }

  /** Some row's `key` column equals `k`. */
  predicate Has<R, K(==)>(rows: seq<R>, key: R -> K, k: K) {
    exists i :: 0 <= i < |rows| && key(rows[i]) == k
  }

  /** Column `key` holds pairwise distinct values (a unique column). */
  predicate Unique<R, K(==)>(rows: seq<R>, key: R -> K) {
    forall i, j :: 0 <= i < j < |rows| ==> key(rows[i]) != key(rows[j])
  }

  /** In a unique column the first match is the only match. */
  lemma IndexOfUnique<R, K>(rows: seq<R>, key: R -> K, k: K, i: nat)
    requires Unique(rows, key)
    requires i < |rows| && key(rows[i]) == k
    ensures IndexOf(rows, key, k) == Some(i)
  {
  }

  /** `delete where` on a unique column: the row at `i` goes, every other row
      stays, in order. */
  function RemoveAt<R>(rows: seq<R>, i: nat): (r: seq<R>)
    requires i < |rows|
    ensures |r| == |rows| - 1
    ensures forall j :: 0 <= j < i ==> r[j] == rows[j]
    ensures forall j :: i <= j < |r| ==> r[j] == rows[j + 1]
  {
    rows[..i] + rows[i + 1..]
  }

  /** Removing a row keeps a unique column unique. */
  lemma RemoveAtKeepsUnique<R, K>(rows: seq<R>, key: R -> K, i: nat)
    requires i < |rows| && Unique(rows, key)
    ensures Unique(RemoveAt(rows, i), key)
  {
    var r := RemoveAt(rows, i);
    forall a, b | 0 <= a < b < |r|
      ensures key(r[a]) != key(r[b])
    {
      var a' := if a < i then a else a + 1;
      var b' := if b < i then b else b + 1;
      assert r[a] == rows[a'] && r[b] == rows[b'];
    }
  }

  /** Removing the row at `i` drops no other row and adds none; in a unique
      column it takes the row's key out of the table altogether. */
  lemma RemoveAtDropsOnlyThatRow<R, K>(rows: seq<R>, key: R -> K, i: nat)
    requires i < |rows|
    ensures forall x :: x in RemoveAt(rows, i) ==> x in rows
    ensures forall x :: x in rows && key(x) != key(rows[i]) ==> x in RemoveAt(rows, i)
    ensures Unique(rows, key) ==>
              && Unique(RemoveAt(rows, i), key)
              && forall k :: 0 <= k < |RemoveAt(rows, i)| ==> key(RemoveAt(rows, i)[k]) != key(rows[i])
  {
    var rest := RemoveAt(rows, i);
    forall x | x in rows && key(x) != key(rows[i])
      ensures x in rest
    {
      var k :| 0 <= k < |rows| && rows[k] == x;
      if k < i { assert rest[k] == x; } else { assert rest[k - 1] == x; }
    }
    if Unique(rows, key) {
      forall k | 0 <= k < |rest|
        ensures key(rest[k]) != key(rows[i])
      {
        var k' := if k < i then k else k + 1;
        assert rest[k] == rows[k'] && k' != i;
      }
      RemoveAtKeepsUnique(rows, key, i);
    }
  }

  /** Number of rows skipped by `skip: page * size`. */
  function Skip(page: nat, size: nat): nat {
    page * size
  }

  /** `findMany({ skip: page * size, take: size })`. */
  function Window<R>(rows: seq<R>, page: nat, size: nat): (r: seq<R>)
    ensures Skip(page, size) >= |rows| ==> r == []
    ensures Skip(page, size) < |rows| ==>
              |r| == if |rows| - Skip(page, size) < size then |rows| - Skip(page, size) else size
    ensures r != [] ==> Skip(page, size) + |r| <= |rows|
    ensures forall i :: 0 <= i < |r| ==> r[i] == rows[Skip(page, size) + i]
  {
    var lo := Skip(page, size);
    if lo >= |rows| then []
    else if |rows| - lo < size then rows[lo..]
    else rows[lo..lo + size]
  }

  /** Every row appears on exactly the page its position dictates, at the
      position within that page that its remainder dictates. */
  lemma WindowCovers<R>(rows: seq<R>, size: nat, k: nat)
    requires size > 0 && k < |rows|
    ensures k % size < |Window(rows, k / size, size)|
    ensures Window(rows, k / size, size)[k % size] == rows[k]
  {
    var p := k / size;
    assert p * size + k % size == k;
    assert Skip(p, size) <= k;
  }

  /** Consecutive pages tile the table: the first `n` pages, concatenated,
      are exactly the first `n * size` rows (or all of them). */
  function Pages<R>(rows: seq<R>, n: nat, size: nat): seq<R> {
    if n == 0 then [] else Pages(rows, n - 1, size) + Window(rows, n - 1, size)
  }

  lemma {:induction false} PagesTile<R>(rows: seq<R>, n: nat, size: nat)
    ensures Pages(rows, n, size) == rows[..if n * size < |rows| then n * size else |rows|]
  {
    if n > 0 {
      PagesTile(rows, n - 1, size);
      var lo := if (n - 1) * size < |rows| then (n - 1) * size else |rows|;
      var hi := if n * size < |rows| then n * size else |rows|;
      assert Skip(n - 1, size) == (n - 1) * size;
      assert n * size == (n - 1) * size + size;
      var w := Window(rows, n - 1, size);
      assert w == rows[lo..hi];
      assert rows[..lo] + rows[lo..hi] == rows[..hi];
    }
  }
}

=== FILE: text.dfy ===
/** Lower-casing of e-mail addresses (`String.prototype.toLowerCase`),
    restricted to the ASCII letters. */
module Text {

  predicate IsUpper(c: char) {
    'A' <= c <= 'Z'
  }

  function LowerChar(c: char): (d: char)
    ensures !IsUpper(d)
    ensures !IsUpper(c) ==> d == c
    ensures IsUpper(c) ==> 'a' <= d <= 'z' && d as int - 'a' as int == c as int - 'A' as int
  {
    if IsUpper(c) then (c as int - 'A' as int + 'a' as int) as char else c
  }

  /** No upper-case letter occurs in `s`. */
  predicate IsLowerCase(s: string) {
    forall i :: 0 <= i < |s| ==> !IsUpper(s[i])
  }

  function ToLowerCase(s: string): (r: string)
    ensures |r| == |s|
    ensures forall i :: 0 <= i < |s| ==> r[i] == LowerChar(s[i])
    ensures IsLowerCase(r)
  {
    if s == [] then [] else [LowerChar(s[0])] + ToLowerCase(s[1..])
  }

  /** Lower-casing leaves an already lower-case string alone, and is therefore
      idempotent. */
  lemma ToLowerCaseFixesLowerCase(s: string)
    requires IsLowerCase(s)
    ensures ToLowerCase(s) == s
  {
    var r := ToLowerCase(s);
    assert forall i :: 0 <= i < |s| ==> r[i] == s[i];
  }

  lemma ToLowerCaseIdempotent(s: string)
    ensures ToLowerCase(ToLowerCase(s)) == ToLowerCase(s)
  {
    ToLowerCaseFixesLowerCase(ToLowerCase(s));
  }
}

=== FILE: tokens.dfy ===
/** The token codec of `CommonService`: access and refresh tokens carrying
    `{ id, role }`, signed under a class-specific secret, stamped with an
    issue time in whole seconds and an absolute expiry `iat + ttl`. The
    signature is abstracted into the token's class: a token of class
    `Access` is one signed with the access-token secret. */
module Tokens {
  import opened Results

  datatype Role = USER | ADMIN

  /** The enum member's name, as interpolated into strings. */
  function RoleName(role: Role): string {
    match role
    case USER => "USER"
    case ADMIN => "ADMIN"
  }

  /** `ParseEnumPipe(Role)` on the `:role` path segment of signup. */
  function ParseRole(s: string): (r: Result<Role>)
    ensures r.Ok? <==> s == "USER" || s == "ADMIN"
    ensures r.Ok? ==> RoleName(r.value) == s
    ensures r.Err? ==> r.error.BadRequest?
  {
    if s == "ADMIN" then Ok(ADMIN)
    else if s == "USER" then Ok(USER)
    else Err(BadRequest("Validation failed (enum string is expected)"))
  }

  /** Every role's name parses back to the role. */
  lemma ParseRoleRoundTrip(role: Role)
    ensures ParseRole(RoleName(role)) == Ok(role)
  {
  }

  datatype TokenClass = Access | Refresh

  datatype Token = Token(cls: TokenClass, id: string, role: Role, iat: int, exp: int)

  /** `expiresIn: 60 * 15` seconds. */
  const AccessTtl: int := 60 * 15
  /** `expiresIn: 60 * 60 * 24 * 7` seconds. */
  const RefreshTtl: int := 60 * 60 * 24 * 7

  /** The signer stamps `iat = floor(now / 1000)` from the millisecond clock. */
  function IssuedAt(nowMs: nat): (s: nat)
    ensures s * 1000 <= nowMs < s * 1000 + 1000
  {
    nowMs / 1000
  }

  function Sign(cls: TokenClass, id: string, role: Role, ttl: int, nowMs: nat): Token {
    var iat := IssuedAt(nowMs);
    Token(cls, id, role, iat, iat + ttl)
  }

  /** `signAccessToken(id, role)`. */
  function SignAccessToken(id: string, role: Role, nowMs: nat): (t: Token)
    ensures t.cls == Access && t.id == id && t.role == role
    ensures t.iat * 1000 <= nowMs < t.iat * 1000 + 1000
    ensures t.exp == t.iat + 900
  {
    Sign(Access, id, role, AccessTtl, nowMs)
  }

  /** `signRefreshToken(id, role)`. */
  function SignRefreshToken(id: string, role: Role, nowMs: nat): (t: Token)
    ensures t.cls == Refresh && t.id == id && t.role == role
    ensures t.iat * 1000 <= nowMs < t.iat * 1000 + 1000
    ensures t.exp == t.iat + 604800
  {
    Sign(Refresh, id, role, RefreshTtl, nowMs)
  }

  /** Tokens signed in different seconds differ; within one second, signing the
      same claims again yields the same token. */
  lemma RefreshTokensDifferAcrossSeconds(id: string, role: Role, t0: nat, t1: nat)
    ensures SignRefreshToken(id, role, t0) == SignRefreshToken(id, role, t1) <==> t0 / 1000 == t1 / 1000
  {
  }

  /** The decoded claims `JwtPayload { id, role, exp }` attached to a request. */
  datatype JwtPayload = JwtPayload(id: string, role: Role, exp: int)

  /** `jwt.decode`: structural only, no signature or expiry check. */
  function Decode(t: Token): JwtPayload {
    JwtPayload(t.id, t.role, t.exp)
  }

  /** `Date.now() >= exp * 1000`. */
  predicate IsExpired(p: JwtPayload, nowMs: int) {
    nowMs >= p.exp * 1000
  }

  /** An access-class token issued at `issuedMs` is certainly expired fifteen
      minutes later, and certainly not expired up to one second before that
      (the issue time is truncated to whole seconds). */
  lemma AccessTokenLifetime(id: string, role: Role, issuedMs: nat, nowMs: int)
    ensures nowMs >= issuedMs + AccessTtl * 1000 ==>
              IsExpired(Decode(SignAccessToken(id, role, issuedMs)), nowMs)
    ensures nowMs < issuedMs + AccessTtl * 1000 - 999 ==>
              !IsExpired(Decode(SignAccessToken(id, role, issuedMs)), nowMs)
  {
    var t := SignAccessToken(id, role, issuedMs);
    assert t.exp * 1000 == t.iat * 1000 + 900000;
  }
}

=== FILE: users.dfy ===
/** `UserService`: listing, reading, updating and deleting user accounts.
    Update and delete check authorization (the account's owner or an ADMIN)
    before they look the account up. */
module UserService {
  import opened Results
  import opened Crypto
  import opened Tables
  import opened Tokens
  import opened Effects
  import opened Common
  import opened Catalog
  import opened Text

  /** `hash` refuses a value that is neither a string nor a buffer. */
  const NotHashable: Error := InternalError("The data argument must be a string or a buffer")

  /** `getAll(page, size)`: the public projections of one page of users. */
  function GetAll(users: seq<User>, page: nat, size: nat): (r: seq<UserResponse>)
    ensures |r| == |Window(users, page, size)|
    ensures |r| <= size
    ensures r != [] ==> Skip(page, size) + |r| <= |users|
    ensures forall i :: 0 <= i < |r| ==> r[i] == Public(users[Skip(page, size) + i])
  {
    var w := Window(users, page, size);
    seq(|w|, i requires 0 <= i < |w| => Public(w[i]))
  }

  /** `getOne(userId)`: NotFound for a missing id. */
  function GetOne(users: seq<User>, userId: string): (r: Result<UserResponse>)
    ensures r.Ok? <==> Has(users, IdOf, userId)
    ensures r.Err? ==> r.error == NotFound("User not found!")
    ensures r.Ok? ==> exists i :: 0 <= i < |users| && users[i].id == userId && r.value == Public(users[i])
  {
    match IndexOf(users, IdOf, userId)
    case Some(i) => Ok(Public(users[i]))
    case None => Err(NotFound("User not found!"))
  }


  /** `userData.password ? await hash(userData.password) : user.password`:
      an absent or falsy password keeps the stored digest, a text is hashed,
      and `true` makes `hash` throw. */
  function NewPassword(stored: Digest<string>, body: Body): (r: Result<Digest<string>>)
    ensures r.Err? <==> "password" in body && body["password"] == Flag(true)
    ensures r.Err? ==> r.error == NotHashable
    ensures r.Ok? && "password" in body && Truthy(body["password"]) ==> Verify(r.value, body["password"].text)
    ensures !("password" in body && Truthy(body["password"])) ==> r == Ok(stored)
  {
    if "password" !in body || !Truthy(body["password"]) then Ok(stored)
    else match body["password"]
         case Text(s) => Ok(Hash(s))
         case Flag(_) => Err(NotHashable)
  }

  /** How one stored user changes under an update: each column the body
      names takes the body's value (the e-mail as sent, not lower-cased), the
      password as `NewPassword` says, the photo from the upload or null; the
      refresh token is kept. */
  predicate Revised(before: User, after: User, body: Body, file: Option<Upload>) {
    && after.id == Given(body, "id", before.id)
    && after.username == Given(body, "username", before.username)
    && after.email == Given(body, "email", before.email)
    && ("role" in body ==> body["role"] == Text(RoleName(after.role)))
    && ("role" !in body ==> after.role == before.role)
    && ("confirmed" in body ==> body["confirmed"] == Flag(after.confirmed))
    && ("confirmed" !in body ==> after.confirmed == before.confirmed)
    && (if "password" in body && Truthy(body["password"])
        then body["password"].Text? && Verify(after.password, body["password"].text)
        else after.password == before.password)
    && after.refreshToken == before.refreshToken
    && after.photoName == PhotoName(file)
  }

  /** The row `{ ...userData, password, photoName }` writes over `user`, or the
      error raised first: by `hash`, then by the store's type check. */
  function Revise(user: User, body: Body, file: Option<Upload>): (r: Result<User>)
    ensures r.Ok? <==> NewPassword(user.password, body).Ok? && Fits(body)
    ensures r.Err? && NewPassword(user.password, body).Err? ==> r.error == NotHashable
    ensures r.Err? && NewPassword(user.password, body).Ok? ==> r.error == InvalidValue
    ensures r.Ok? ==> Revised(user, r.value, body, file)
  {
    var password :- NewPassword(user.password, body);
    if !Fits(body) then Err(InvalidValue)
    else
      var role := if "role" in body then ParseRole(body["role"].text).value else user.role;
      var confirmed := if "confirmed" in body then body["confirmed"].flag else user.confirmed;
      Ok(user.(id := Given(body, "id", user.id), username := Given(body, "username", user.username),
               email := Given(body, "email", user.email), password := password, role := role,
               confirmed := confirmed, photoName := PhotoName(file)))
  }

  /** The revised row would take an id or an e-mail another user has: the
      store's unique constraints refuse the write. */
  predicate Clashes(users: seq<User>, before: User, after: User) {
    || (after.id != before.id && Has(users, IdOf, after.id))
    || (after.email != before.email && Has(users, EmailOf, after.email))
  }

  /** A body that sets the e-mail sets a lower-case one. */
  predicate LowerCaseEmail(body: Body) {
    "email" in body && body["email"].Text? ==> IsLowerCase(body["email"].text)
  }

  /** `update(userId, userData, file, decodedUser)`: authorize, look up,
      upload, hash, write. */
  function Update(users: seq<User>, userId: string, body: Body, file: Option<Upload>,
                  caller: JwtPayload): (r: Reply<(seq<User>, UserResponse)>)
    ensures Rejects(OwnerOrAdmin, caller, userId) ==> r == Reply([], Err(Unauthorized("Unauthorized user!")))
    ensures !Rejects(OwnerOrAdmin, caller, userId) && !Has(users, IdOf, userId) ==> r == Reply([], Err(Forbidden(UserNotFound)))
    ensures !Rejects(OwnerOrAdmin, caller, userId) && Has(users, IdOf, userId) ==>
              var user := FindUserById(users, userId).value;
              var revised := Revise(user, body, file);
              && r.effects == UploadEffects(file)
              && (revised.Err? ==> r.result == Err(revised.error))
              && (revised.Ok? && Clashes(users, user, revised.value) ==> r.result == Err(UniqueFailed))
              && (r.result.Ok? <==> revised.Ok? && !Clashes(users, user, revised.value))
    ensures r.result.Ok? ==>
              var (users', response) := r.result.value;
              && |users'| == |users|
              && (Unique(users, IdOf) ==>
                    forall j :: 0 <= j < |users| ==>
                      if users[j].id == userId then Revised(users[j], users'[j], body, file) && response == Public(users'[j])
                      else users'[j] == users[j])
    ensures r.result.Ok? && Valid(users) && LowerCaseEmail(body) ==> Valid(r.result.value.0)
  {
    if Rejects(OwnerOrAdmin, caller, userId) then
      Reply([], Err(Unauthorized("Unauthorized user!")))
    else
      // `findUserById(userId)`, then the upload, the hash and the write on the
      // row it found.
      match IndexOf(users, IdOf, userId)
      case None => Reply([], Err(Forbidden(UserNotFound)))
      case Some(i) =>
        var uploads := UploadEffects(file);
        match Revise(users[i], body, file)
        case Err(e) => Reply(uploads, Err(e))
        case Ok(updated) =>
          if Clashes(users, users[i], updated) then
            Reply(uploads, Err(UniqueFailed))
          else
            var users' := users[i := updated];
            assert Valid(users) && LowerCaseEmail(body) ==> Valid(users') by {
              if Valid(users) && LowerCaseEmail(body) {
                ReplaceKeepsUnique(users, IdOf, i, updated);
                ReplaceKeepsUnique(users, EmailOf, i, updated);
              }
            }
            Reply(uploads, Ok((users', Public(updated))))
  }

  /** As written, a USER who sends `role` = `ADMIN` in the body of an update
      of their own account becomes an ADMIN. */
  lemma SelfPromotionAsWritten(users: seq<User>, caller: JwtPayload)
    requires Valid(users) && Has(users, IdOf, caller.id) && caller.role == USER
    ensures var r := Update(users, caller.id, map["role" := Text("ADMIN")], None, caller);
            && r.result.Ok?
            && Valid(r.result.value.0)
            && FindUserById(r.result.value.0, caller.id).value.role == ADMIN
  {
    var body := map["role" := Text("ADMIN")];
    var i :| 0 <= i < |users| && users[i].id == caller.id;
    IndexOfUnique(users, IdOf, caller.id, i);
    var r := Update(users, caller.id, body, None, caller);
    assert r.result.Ok?;
    var users' := r.result.value.0;
    assert users'[i].id == caller.id && users'[i].role == ADMIN;
    IndexOfUnique(users', IdOf, caller.id, i);
  }

  /** The keys `UpdateUserDto` declares: what a whitelisting validation pipe
      lets through. */
  const Declared: set<string> := {"username", "password"}

  /** Update after the body is stripped to the declared keys: the evidently
      intended behaviour, in which an update never touches the account's id,
      e-mail, role, confirmation or refresh token. */
  function UpdateWhitelisted(users: seq<User>, userId: string, body: Body, file: Option<Upload>,
                             caller: JwtPayload): (r: Reply<(seq<User>, UserResponse)>)
    ensures r.result.Ok? <==>
              && !Rejects(OwnerOrAdmin, caller, userId)
              && Has(users, IdOf, userId)
              && !("password" in body && body["password"] == Flag(true))
              && ("username" in body ==> body["username"].Text?)
    ensures r.result.Ok? ==>
              var users' := r.result.value.0;
              && |users'| == |users|
              && forall j :: 0 <= j < |users| ==>
                   && users'[j].id == users[j].id
                   && users'[j].email == users[j].email
                   && users'[j].role == users[j].role
                   && users'[j].confirmed == users[j].confirmed
                   && users'[j].refreshToken == users[j].refreshToken
    ensures r.result.Ok? && Valid(users) ==> Valid(r.result.value.0)
  {
    var declared := map k | k in body && k in Declared :: body[k];
    assert "id" !in declared && "email" !in declared && "role" !in declared && "confirmed" !in declared;
    Update(users, userId, declared, file, caller)
  }

  /** `delete(userId, decodedUser)`. */
  function Delete(users: seq<User>, userId: string, caller: JwtPayload): (r: Result<seq<User>>)
    ensures Rejects(OwnerOrAdmin, caller, userId) ==> r == Err(Unauthorized("Unauthorized user!"))
    ensures !Rejects(OwnerOrAdmin, caller, userId) && !Has(users, IdOf, userId) ==> r == Err(Forbidden(UserNotFound))
    ensures r.Ok? <==> !Rejects(OwnerOrAdmin, caller, userId) && Has(users, IdOf, userId)
    ensures r.Ok? ==> |r.value| == |users| - 1
    ensures r.Ok? ==> forall u :: u in r.value ==> u in users
    ensures r.Ok? ==> forall u :: u in users && u.id != userId ==> u in r.value
    ensures r.Ok? && Unique(users, IdOf) ==> !Has(r.value, IdOf, userId)
    ensures r.Ok? && Valid(users) ==> Valid(r.value)
  {
    if Rejects(OwnerOrAdmin, caller, userId) then
      Err(Unauthorized("Unauthorized user!"))
    else
      match IndexOf(users, IdOf, userId)
      case None => Err(Forbidden(UserNotFound))
      case Some(i) =>
        var rest := RemoveAt(users, i);
        RemoveAtDropsOnlyThatRow(users, IdOf, i);
        RemoveAtDropsOnlyThatRow(users, EmailOf, i);
        assert Valid(users) ==> Valid(rest);
        Ok(rest)
  }
}
